=== FILE: README.md ===
# Profile gallery: a Dafny model

This project models the core of a small profile gallery. It has two parts.

- **The browser client (`main.js`).** It keeps a session (token and role), the full list of profiles, and the list currently shown. The shown list is found by a case-insensitive name search combined with a single category filter, where `"all"` is a wildcard. The client also builds the row of category filter buttons. Its add and edit forms take comma-separated lists, and the edit modal is pre-filled by joining lists with `", "`.
- **Six serverless handlers (`netlify/functions/*.js`).** These are `login`, `addUser`, `addProfile`, `editProfile`, `deleteProfile` and `getProfiles`. Each is a fixed decision ladder, checked top to bottom, and the first failing rung decides the response. The four admin handlers (`addUser`, `addProfile`, `editProfile`, `deleteProfile`) check the method, the `Authorization` header, the token and the admin role, and the body fields, then perform one operation on the `users` or `profiles` collection. `login` has its own ladder and reads no header: method, server configuration, body, credentials present, store, password, signing. `getProfiles` checks only the method and the store. Rungs do not all have their own outcome. In `login`, an unknown user and a wrong password both give the same 401. In the admin handlers, a rejected token, an unparsable body, an unreachable store, a rejected id and an insert collision all give the same 500 `InternalError`.

Each client event handler is a pure function from the client state before the event to the state after it. Each serverless handler is a pure function from a request, the collection, the store's reachability and the token and password services to its outcome. The four writing handlers return a response together with the collection afterwards. `login` and `getProfiles` only read, so they return a response alone. The collections are sequences of documents in natural (insertion) order. This is because `find({}).toArray()` lists them in that order and `findOne` returns the first match. Unique ids and unique usernames are invariants the handlers are proved to preserve.

Modules, one per file:

- `Wrappers`: `Option` and `Outcome`. `Outcome` is a value or a thrown exception's message.
- `Text`: the string operations. These are ASCII `toLowerCase`, `includes`, `split` on one character, `join`, ECMAScript `trim`, and the list fields built from them.
- `Roles`: the admin role name, shared by the client and the handlers.
- `Seqs`: first-match search, duplicate-free sequences, de-duplication in insertion order, and order-preserving selection.
- `Gallery`: the client state and its event handlers.
- `Json`: values as `JSON.parse` yields them, with JavaScript truthiness, `Array.isArray(v) ? v : [v]`, and which strings `new ObjectId(v)` accepts.
- `Documents`: the two collections and `findOne`, `insertOne`, `updateOne` with `$set`, and `deleteOne`.
- `Http`: requests, responses, the token and password services as uninterpreted functions, `Authorization` parsing, and the admin ladder the four admin handlers share.
- `Login`, `AddUser`, `AddProfile`, `EditProfile`, `DeleteProfile`, `GetProfiles`: one handler each.

Four facts about the handlers are easy to misread and are modelled as the code has them:

- **Listing needs no token.** `getProfiles` never reads the `Authorization` header, so any caller gets the full listing.
- **A bad token gives 500, not 401.** A token that fails verification makes `jwt.verify` throw, and the handler's `catch` answers that with 500. Only a missing header gives 401.
- **A duplicate username gives 400**, with the message "El usuario ya existe".
- **Missing configuration is checked only by `login`.** The other handlers do not check it.

Two details of the libraries are fixed by assumption. `new ObjectId(v)` behaves as in version 6 of the `bson` package. A header such as `Bearer ` hands `jwt.verify` an empty token, which it refuses with "jwt must be provided" before any signature check.

## Model

| member | source | states |
|---|---|---|
| Text.LowerChar | main.js:283 | `toLowerCase` on one character: an upper-case ASCII letter becomes the character 32 code points above it, every other character is kept, and the result is never upper case |
| Text.Lower | main.js:283-286 | lower-casing keeps the length and lower-cases each character in place |
| Text.LowerIdempotent | main.js:283-286 | lower-casing an already lower-cased name changes nothing |
| Text.IncludesIffOccurs | main.js:286 | `includes` holds exactly when the term occurs at some position of the name |
| Text.IncludesEmpty | main.js:283-286 | the empty search term is included in every name |
| Text.Split | main.js:128 | `split(",")` yields one piece per separator plus one, and no piece contains the separator |
| Text.JoinSplit | main.js:128 | joining the pieces of a split with the separator rebuilds the original text |
| Text.Join | main.js:197 | `join` starts with the first entry, its length is the entries' total length plus one separator per neighbouring pair, and the empty list joins to the empty text |
| Text.SplitFree | main.js:128 | text without the separator splits into itself alone |
| Text.SplitAtSeparator | main.js:128 | the first piece ends at the first separator and the rest splits independently |
| Text.SplitJoin | main.js:197 | splitting a join of separator-free pieces returns the pieces |
| Text.JoinCons | main.js:197 | joining a list with an entry in front puts that entry, then the separator, before the join of the rest |
| Text.JoinPrependToFirst | main.js:197 | prefixing the first entry with a character prefixes the whole join with it |
| Text.TrimStart | main.js:128 | `trimStart` removes only white space from the front: what it drops is all white space, the rest is a suffix of the input, and that suffix does not begin with white space |
| Text.TrimEnd | main.js:128 | `trimEnd` removes only white space from the back: what it drops is all white space, the rest is a prefix of the input, and that prefix does not end with white space |
| Text.Trim | main.js:128 | `trim` returns the input with only white space removed at each end, and the result has no white space at either end |
| Text.StripsUnique | main.js:128 | at most one string with no white space at its ends is obtained from a given text by removing white space at its two ends, so `trim` is fully determined by its contract |
| Text.TrimSurroundingSpace | main.js:128 | white space added before and after a text is removed again: `trim(a + s + b)` is `trim(s)` for all-white-space `a` and `b` |
| Text.TrimTrimmed | main.js:128 | trimming an already trimmed entry leaves it unchanged |
| Text.TrimLeadingSpace | main.js:128 | a leading white-space character never survives `trim` |
| Text.TrimAll | main.js:128-129 | `map(x => x.trim())` keeps the number of pieces and trims each one in place |
| Text.ParseList | main.js:128-129 | a list field parses to one entry per comma plus one; entry `k` is the trimmed `k`-th comma-separated piece, so every entry is trimmed and comma-free |
| Text.ParseEmptyField | main.js:128-129 | an empty field parses to one empty entry, not to an empty list |
| Text.ParseListAtComma | main.js:128-129 | a field with a comma parses to the trimmed text before it followed by the parse of the rest |
| Text.ParseListLeadingSpace | main.js:128-129 | the space after each comma of a `", "` join does not change the parsed list |
| Text.FormatListCons | main.js:197-198 | a joined list is its first entry, a comma, a space and the join of the rest |
| Text.FormatList | main.js:197-198 | the pre-fill starts with the first entry and adds two characters per separator; the empty list gives the empty field |
| Text.ParseFormatStep | main.js:197-198 | a trimmed, comma-free entry in front of a list that round-trips gives a list that round-trips |
| Text.ParseFormatRoundTrip | main.js:162-198 | parsing the `join(", ")` pre-fill gives back any non-empty list of trimmed, comma-free entries |
| Text.EmptyListDoesNotRoundTrip | main.js:197-198 | an empty list pre-fills as the empty field, which comes back as one empty entry |
| Seqs.FirstWhere | main.js:191 | `find` returns the position of the first element satisfying the test, or nothing when none does |
| Seqs.FirstIndex | main.js:246-248 | the position of the first occurrence of an element: it holds the element and no earlier position does |
| Seqs.FirstIndexUnique | main.js:246-248 | any position holding the element with no earlier occurrence is the first occurrence |
| Seqs.FirstIndexInPrefix | main.js:246-248 | an element already seen in a prefix has its first occurrence there |
| Seqs.Dedup | main.js:246-248 | filling a `Set` in order yields no repeats and exactly the elements of the input |
| Seqs.DedupFirstOccurrenceOrder | main.js:246-260 | the `Set` lists its elements in order of their first occurrence in the input |
| Gallery.Filter | main.js:285-289 | the filter keeps only matching profiles of the full list and never grows it |
| Gallery.FilterSelectsMatches | main.js:282-289 | the filter result is the order-preserving selection of exactly the positions whose profile matches the lower-cased term and the active category |
| Gallery.SelectsShift | main.js:285 | a selection from the tail is a selection from the whole list, with or without the head |
| Gallery.Matches | main.js:285-288 | a profile matches iff the term occurs at some position of its lower-cased name and the category is `"all"` or one of its categories |
| Gallery.FilterNothing | main.js:283-289 | an empty search term with the `"all"` category shows every profile, in order |
| Gallery.Render | main.js:295-321 | `renderProfiles` hides the gallery and keeps the old cards when nothing is shown; otherwise it shows the gallery with cards drawn for the current role; nothing else changes |
| Gallery.ApplyFilters | main.js:282-292 | `applyFilters` changes only the shown list and the drawn cards; the shown list is the filter of the full list, which holds exactly the profiles matching the lower-cased search box and the active category, in their original order, and the gallery is visible iff it is non-empty |
| Gallery.ApplyFiltersForgetsPrevious | main.js:282-289 | the shown list depends only on the full list, the search box and the category, never on what was shown before |
| Gallery.FilterByCategory | main.js:275-279 | selecting a category makes it active and shows exactly the profiles matching it and the search box, in order; the session, form, panel and full list are untouched |
| Gallery.ChooseAllShowsEverything | main.js:252-289 | with an empty search box the "Todos" button shows the whole list in order |
| Gallery.ChooseCategoryIdempotent | main.js:275-289 | from any state, choosing the same category button twice leaves the same state as choosing it once |
| Gallery.AllProfileCategoriesContents | main.js:246-249 | a category occurs in the flattened category lists iff some profile carries it |
| Gallery.CategoryButtons | main.js:245-249 | the category buttons offer no category twice |
| Gallery.CategoryButtonsExact | main.js:245-260 | the buttons offer every category of every profile exactly once, nothing else, in first-occurrence order |
| Gallery.LoginSucceeded | main.js:50-59 | a successful login stores the returned token and role and reveals the admin panel for the admin role, never hiding it; nothing else changes |
| Gallery.Logout | main.js:81-86 | logout clears the token and role and hides the main screen and the admin panel, so no admin control is visible; nothing else changes |
| Gallery.LogoutUndoesLogin | main.js:50-86 | from a logged-out page, logging in and then out restores the page exactly |
| Gallery.FreshLoginLogout | main.js:21-86 | on a fresh page the admin panel appears iff the login returned the admin role, and a logout returns to the fresh page |
| Gallery.AdminControlsFollowRole | main.js:57-86 | from a page whose admin panel is hidden, the panel is shown after login iff the role is `"admin"`; after logout neither the panel nor card buttons are visible |
| Gallery.Reload | main.js:231-235 | a reload replaces the full list and shows all of it; when the list is non-empty the cards are redrawn for the current role, otherwise the gallery is hidden and the old cards keep their role; nothing else changes |
| Gallery.ReloadIgnoresActiveFilter | main.js:232-233 | after a reload, a profile that does not match the active filter is still shown until filters are applied again |
| Gallery.CardButtonsFollowRole | main.js:46-62 | a login followed by a successful non-empty load shows card edit and delete buttons iff the role is `"admin"` |
| Gallery.StaleCardButtons | main.js:46-89 | the cards keep the role they were drawn for: after an admin session, a logout and a member login whose load fails, the member sees the edit and delete buttons but not the admin panel |
| Gallery.OpenEditModal | main.js:190-202 | an unknown id changes nothing; otherwise the form holds the first profile with that id, its lists joined with `", "` |
| Gallery.CloseEditModal | main.js:205-209 | closing the modal blanks the form and forgets the edited id; nothing else changes |
| Gallery.CloseUndoesOpen | main.js:190-209 | closing the modal after opening it on any id leaves the page as closing alone would |
| Gallery.SubmittedFields | main.js:159-163 | name and photo are sent as typed, and each list field is sent as its comma-separated pieces, trimmed: one entry per comma plus one |
| Gallery.EditUntouchedRoundTrip | main.js:159-198 | opening the modal on a profile with non-empty, trimmed, comma-free lists and submitting it untouched sends that profile's own fields back |
| Json.Get | netlify/functions/addProfile.js:58 | destructuring a field yields its value, or a falsy value when the field is absent |
| Json.Truthy | netlify/functions/addProfile.js:60 | a value is falsy iff it is `undefined`, `null`, `false`, `0` or the empty string; every array and object is truthy |
| Json.AsList | netlify/functions/addProfile.js:77-78 | an array is kept as it is, and any other value becomes a one-element list holding it |
| Json.AsListNormalised | netlify/functions/editProfile.js:77-78 | normalising twice changes nothing, and a truthy scalar gives a non-empty list |
| Json.ParseObjectId | netlify/functions/editProfile.js:83 | `new ObjectId` generates a fresh id exactly for `null`, `undefined` and numbers; it accepts exactly a 24-hex-digit string, or an object whose `id` is one, and yields its lower-cased canonical text; other values throw, with the library's message for each kind |
| Json.FromHex | netlify/functions/deleteProfile.js:75 | a string id is accepted iff it has 24 hex digits, and then yields its lower-cased text; otherwise the hex-string message is thrown |
| Json.CanonicalIdParsesToItself | netlify/functions/deleteProfile.js:75 | an id as the listing returns it is accepted back unchanged |
| Json.WrappedIdReadsAsText | netlify/functions/deleteProfile.js:75 | an object carrying the id text in `id` is read exactly as the bare text, errors included |
| Json.IdCaseIgnored | netlify/functions/editProfile.js:83 | the case of the hex digits does not change the id |
| Documents.FindUser | netlify/functions/login.js:79 | `findOne({ username })` finds a user iff one has that username, and with unique usernames it is that user |
| Documents.InsertProfile | netlify/functions/addProfile.js:82 | `insertOne` appends the document unless its id is taken, in which case it throws; unique ids stay unique |
| Documents.SetFields | netlify/functions/editProfile.js:74-85 | `$set` overwrites name, photo, links, categories and the update time, and keeps the id and creation time |
| Documents.UpdateProfile | netlify/functions/editProfile.js:82-87 | `updateOne` matches nothing iff no profile has the id; otherwise it rewrites the first match and keeps every other document |
| Documents.DeleteProfile | netlify/functions/deleteProfile.js:74-78 | `deleteOne` deletes nothing iff no profile has the id; otherwise it removes the first match and keeps the order of the rest |
| Documents.UpdateKeepsIds | netlify/functions/editProfile.js:82-85 | an update keeps every document's id and creation time, so unique ids stay unique |
| Documents.RemovedAt | netlify/functions/deleteProfile.js:74-76 | removing one position shifts the later documents one place left |
| Documents.DeleteRemovesExactlyOne | netlify/functions/deleteProfile.js:74-76 | with unique ids a delete removes the one profile with the id and keeps every other profile |
| Http.TokenOf | netlify/functions/addUser.js:45 | the token is the second space-separated piece of the header; it exists iff the header has a space, and contains no space |
| Http.AnySchemeAccepted | netlify/functions/addUser.js:44-46 | whatever word precedes the space, the text after it is the token: `Bearer` is never checked |
| Http.TokenBetweenSpaces | netlify/functions/addUser.js:45 | the token is the text between the first and the second space; what follows the second space is ignored |
| Http.Authenticate | netlify/functions/addUser.js:45-46 | a missing or empty token is refused with "jwt must be provided"; any other token is exactly what the verifier makes of it |
| Http.EmptyTokenRefused | netlify/functions/addUser.js:44-46 | a header ending right after the scheme, like `Bearer `, is refused without consulting the verifier |
| Http.Destructure | netlify/functions/addUser.js:59 | destructuring the parsed body succeeds iff it parsed to something other than `null`; otherwise it throws |
| Http.Field | netlify/functions/addUser.js:59 | a body field is the parsed body's field, or `undefined` when the body could not be destructured |
| Http.AdminGate | netlify/functions/addUser.js:9-59 | the shared ladder: preflight 200, other methods 405, no header 401, failed verification 500, non-admin 403, unparsable body 500, else the parsed fields |
| Http.TargetId | netlify/functions/editProfile.js:83 | the id a request names, when the constructor accepted its text, is canonical |
| Login.Fault | netlify/functions/login.js:122-131 | a caught fault is a 500 whose message is the fixed prefix followed by the exception's message |
| Login.Handle | netlify/functions/login.js:10-131 | each rung's status iff its condition: preflight, 405, configuration 500, missing credentials 400, unknown user or wrong password 401, success 200 with the stored role and a token signed over username and role for `2h`; 500 iff configuration is missing or the body, the store, the comparison or the signing fails, each fault reported with its own message |
| Login.UnknownUserLooksLikeWrongPassword | netlify/functions/login.js:82-105 | an unknown username and a wrong password get the identical 401 answer |
| Login.ConfigurationCheckedFirst | netlify/functions/login.js:37-59 | missing configuration answers 500 whatever the body, the users and the store |
| Login.MissingCredentialsSkipStore | netlify/functions/login.js:64-73 | missing credentials answer 400 whatever the users and the store |
| Login.SessionCarriesStoredRole | netlify/functions/login.js:107-121 | with unique usernames a successful login returns the stored user's role and a token for that username and role |
| AddUser.Handle | netlify/functions/addUser.js:21-107 | each rung's status iff its condition, in source order, with 500 iff the token fails verification, the body does not destructure, the store is down, or hashing fails for a new username; a new user with the hashed password is appended only on 200, and the collection is unchanged otherwise |
| AddUser.UsernamesStayUnique | netlify/functions/addUser.js:75-88 | no request makes two users share a username |
| AddUser.SecondAddRefused | netlify/functions/addUser.js:75-85 | repeating a successful add answers 400 "El usuario ya existe" and changes nothing |
| AddUser.NewUser | netlify/functions/addUser.js:87-88 | the created user carries the given username and role and the hash, not the password |
| AddProfile.NewProfile | netlify/functions/addProfile.js:74-81 | the inserted document carries the given fields, lists normalised, and the creation time |
| AddProfile.Handle | netlify/functions/addProfile.js:20-101 | each rung's status iff its condition, with 500 iff the token fails verification, the body does not destructure, the store is down or the generated id is taken; exactly one profile is appended only on 200, the collection is unchanged otherwise, and ids stay unique |
| AddProfile.EmptyListAcceptedEmptyStringRefused | netlify/functions/addProfile.js:60-78 | an empty list of links passes the presence check and is stored empty, while an empty string is refused with 400 |
| EditProfile.Changes | netlify/functions/editProfile.js:74-80 | the `$set` carries the given name and photo, the lists normalised as on insert, and the update time |
| EditProfile.Handle | netlify/functions/editProfile.js:20-115 | each rung's status iff its condition, including 500 for an id the constructor rejects and 404 iff the id selects no stored profile (a generated id never does); the collection changes only on 200 |
| EditProfile.NumericIdNotFound | netlify/functions/editProfile.js:81-95 | a numeric id makes the constructor generate a fresh id, so the edit answers 404 and changes nothing |
| EditProfile.EditTouchesOnlyTarget | netlify/functions/editProfile.js:74-85 | a successful edit rewrites only the targeted profile's fields and update time, keeping its id, its creation time and all other profiles |
| DeleteProfile.Handle | netlify/functions/deleteProfile.js:20-106 | each rung's status iff its condition, including 400 for a missing id, 500 for an id the constructor rejects and 404 iff the id selects no stored profile; the collection changes only on 200 |
| DeleteProfile.DeleteRemovesOnlyTarget | netlify/functions/deleteProfile.js:74-96 | a successful delete removes exactly the targeted profile and keeps every other one |
| DeleteProfile.SecondDeleteNotFound | netlify/functions/deleteProfile.js:78-87 | repeating a successful delete answers 404 and changes nothing |
| GetProfiles.Handle | netlify/functions/getProfiles.js:6-41 | preflight 200, other methods 405, a store failure 500, otherwise 200 with every stored profile in order |
| GetProfiles.ListingIsPublic | netlify/functions/getProfiles.js:29-41 | the listing ignores the `Authorization` header and the body |

## Left out

- The markup `main.js` builds, `fetch`, `alert`, `confirm` and event wiring are left out. They are presentation and I/O. What the client does after a response is modelled as the state change that follows it. Of the page, only the visibility of the admin panel and the gallery and the role the cards were drawn for are kept; the main screen is visible exactly while a token is held, so it has no field of its own.
- The client's requests to the handlers are left out. The client sends strings and the handlers receive JSON values, and the model does not connect the two.
- CORS header contents and `console` logging add no behaviour and are left out.
- Opening and closing the store connection in each request, including `finally`, is left out. The store is `Up` or `Down` with a message.
- Each module creates its `MongoClient` at load time. That can fail before any handler runs, and this failure is left out. The model lets `login` reach its own check for a missing connection string.
- The token and password libraries are uninterpreted functions that may throw. This covers JWT signing, verification and expiry, and bcrypt hashing and comparison.
- `new Date()` is an integer parameter. The two environment variables are booleans. The driver's generated id is a parameter.
- Concurrency between requests is left out. Each handler is one atomic step.
- `Text.LowerChar`: `toLowerCase` is modelled for ASCII letters only, so full Unicode case folding is left out.
- `Json.Truthy`: numbers are integers, so `NaN` and `-0` are left out.
- `Json.ParseObjectId`: the 12-byte buffer forms and objects with a `toHexString` method cannot come out of `JSON.parse` and are left out. The fresh id generated for a number is assumed to match no stored profile.
- `Documents.FindUser`: usernames are compared as whole values. MongoDB's query operators, for a username that is an object, are left out.
- `Http.Destructure`: the exact `TypeError` message for a `null` body is a placeholder. Handlers other than `login` never show it.
- `Gallery.ApplyFilters`: the listing is assumed to give the client string names and photos and lists of strings, which is what `Profile` holds. The handlers accept any truthy JSON value as a name. A profile stored with a number as its name would make `applyFilters` throw at `profile.name.toLowerCase()` (main.js:286), leaving the shown list as it was. That failure is not modelled.
- `Gallery.Logout`: resetting the login form and its error text is DOM work and is left out.
- The source has no pagination or lazy loading, so the model has none.

=== FILE: add_profile.dfy ===
/**
 * `addProfile`: an admin inserts a profile. Links and categories given as a
 * single value are wrapped in a one-element list; the id comes from the
 * driver and the creation time from the clock, both passed in.
 */
module AddProfile {
  import opened Wrappers
  import opened Json
  import opened Documents
  import opened Http

  const ProfileCreated := Response(200, Message("Perfil creado correctamente"))

  /** An admin's POST whose body parsed. */
  predicate Admitted(req: Request, crypto: Crypto) {
    req.httpMethod == Post && AuthorizedAdmin(req, crypto) && Destructure(req.body).Ok?
  }

  /** `!name || !photo || !links || !categories` is false: an empty string is
      missing, an empty list is not. */
  predicate Complete(req: Request) {
    && Truthy(Field(req, "name")) && Truthy(Field(req, "photo"))
    && Truthy(Field(req, "links")) && Truthy(Field(req, "categories"))
  }

  /** The document the request inserts. */
  function NewProfile(req: Request, id: string, now: int): (d: ProfileDoc)
    ensures d.id == id && d.createdAt == Some(now) && d.updatedAt.None?
    ensures d.name == Field(req, "name") && d.photo == Field(req, "photo")
    ensures Field(req, "links").Arr? ==> d.links == Field(req, "links").items
    ensures !Field(req, "links").Arr? ==> d.links == [Field(req, "links")]
    ensures Field(req, "categories").Arr? ==> d.categories == Field(req, "categories").items
    ensures !Field(req, "categories").Arr? ==> d.categories == [Field(req, "categories")]
  {
    ProfileDoc(id, Field(req, "name"), Field(req, "photo"),
      AsList(Field(req, "links")), AsList(Field(req, "categories")), Some(now), None)
  }

  /** `newId` is the id the driver assigns, `now` the creation time. */
  function Handle(req: Request, docs: seq<ProfileDoc>, db: Db, crypto: Crypto, newId: string, now: int)
    : (r: Reply<seq<ProfileDoc>>)
    ensures req.httpMethod == Options ==> r == Reply(Preflight, docs)
    ensures req.httpMethod != Options && req.httpMethod != Post ==> r == Reply(MethodNotAllowed, docs)
    ensures r.response == MissingToken <==> req.httpMethod == Post && !HasAuthHeader(req)
    ensures r.response == NotAuthorized <==>
      req.httpMethod == Post && Authenticated(req, crypto) && !AuthorizedAdmin(req, crypto)
    ensures r.response == IncompleteData <==> Admitted(req, crypto) && !Complete(req)
    ensures r.response == ProfileCreated <==>
      Admitted(req, crypto) && Complete(req) && db.Up? && !HasProfile(docs, newId)
    ensures r.response == ProfileCreated ==> r.store == docs + [NewProfile(req, newId, now)]
    ensures r.response != ProfileCreated ==> r.store == docs
    ensures r.response.status == 500 ==> r.response == InternalError
    ensures r.response == InternalError <==>
      || (req.httpMethod == Post && HasAuthHeader(req) && !Authenticated(req, crypto))
      || (req.httpMethod == Post && AuthorizedAdmin(req, crypto) && Destructure(req.body).Throw?)
      || (Admitted(req, crypto) && Complete(req) && (db.Down? || HasProfile(docs, newId)))
    ensures UniqueIds(docs) ==> UniqueIds(r.store)
  {
    match AdminGate(req, Post, crypto)
    case Halt(response) => Reply(response, docs)
    case Proceed(fields) =>
      var name, photo := Get(fields, "name"), Get(fields, "photo");
      var links, categories := Get(fields, "links"), Get(fields, "categories");
      if !Truthy(name) || !Truthy(photo) || !Truthy(links) || !Truthy(categories) then
        Reply(IncompleteData, docs)
      else if db.Down? then Reply(InternalError, docs)
      else
        var doc := ProfileDoc(newId, name, photo, AsList(links), AsList(categories), Some(now), None);
        match InsertProfile(docs, doc)
        case Throw(_) => Reply(InternalError, docs)
        case Ok(inserted) => Reply(ProfileCreated, inserted)
  }

  /** An empty list of links or categories passes the presence check and is
      stored empty, while an empty string is refused. */
  lemma EmptyListAcceptedEmptyStringRefused(req: Request, docs: seq<ProfileDoc>, db: Db, crypto: Crypto,
    newId: string, now: int)
    requires Admitted(req, crypto) && db.Up? && !HasProfile(docs, newId)
    requires Truthy(Field(req, "name")) && Truthy(Field(req, "photo")) && Truthy(Field(req, "categories"))
    ensures Field(req, "links") == Arr([]) ==>
      Handle(req, docs, db, crypto, newId, now).store[|docs|].links == []
    ensures Field(req, "links") == Str("") ==>
      Handle(req, docs, db, crypto, newId, now) == Reply(IncompleteData, docs)
  {
  }
}

=== FILE: add_user.dfy ===
/**
 * `addUser`: an admin creates a user with a username, a password (stored
 * hashed) and a role. The role is stored as given; it is not restricted to
 * "admin" or "member".
 */
module AddUser {
  import opened Wrappers
  import opened Json
  import opened Documents
  import opened Http

  /** The bcrypt cost factor. */
  const SaltRounds := 10

  const UserExists := Response(400, Error("El usuario ya existe"))
  const UserCreated := Response(200, Message("Usuario creado correctamente"))

  /** An admin's POST whose body parsed. */
  predicate Admitted(req: Request, crypto: Crypto) {
    req.httpMethod == Post && AuthorizedAdmin(req, crypto) && Destructure(req.body).Ok?
  }

  /** Username, password and role are all present and non-empty. */
  predicate Complete(req: Request) {
    Truthy(Field(req, "username")) && Truthy(Field(req, "password")) && Truthy(Field(req, "role"))
  }

  /** The user the request would create, given the hash of its password:
      the username and role as sent, the password only as its hash. */
  function NewUser(req: Request, hash: string): (u: User)
    ensures u.username == Field(req, "username") && u.role == Field(req, "role")
    ensures u.password == hash
  {
    User(Field(req, "username"), hash, Field(req, "role"))
  }

  function Handle(req: Request, users: seq<User>, db: Db, crypto: Crypto): (r: Reply<seq<User>>)
    ensures req.httpMethod == Options ==> r == Reply(Preflight, users)
    ensures req.httpMethod != Options && req.httpMethod != Post ==> r == Reply(MethodNotAllowed, users)
    ensures r.response == MissingToken <==> req.httpMethod == Post && !HasAuthHeader(req)
    ensures r.response == NotAuthorized <==>
      req.httpMethod == Post && Authenticated(req, crypto) && !AuthorizedAdmin(req, crypto)
    ensures r.response == IncompleteData <==> Admitted(req, crypto) && !Complete(req)
    ensures r.response == UserExists <==>
      Admitted(req, crypto) && Complete(req) && db.Up? && HasUser(users, Field(req, "username"))
    ensures r.response == UserCreated <==>
      && Admitted(req, crypto) && Complete(req) && db.Up?
      && !HasUser(users, Field(req, "username"))
      && crypto.hash(Field(req, "password"), SaltRounds).Ok?
    ensures r.response == UserCreated ==>
      r.store == users + [NewUser(req, crypto.hash(Field(req, "password"), SaltRounds).value)]
    ensures r.response != UserCreated ==> r.store == users
    ensures r.response.status == 500 ==> r.response == InternalError
    ensures r.response == InternalError <==>
      || (req.httpMethod == Post && HasAuthHeader(req) && !Authenticated(req, crypto))
      || (req.httpMethod == Post && AuthorizedAdmin(req, crypto) && Destructure(req.body).Throw?)
      || (&& Admitted(req, crypto) && Complete(req)
          && (|| db.Down?
              || (!HasUser(users, Field(req, "username")) && crypto.hash(Field(req, "password"), SaltRounds).Throw?)))
  {
    match AdminGate(req, Post, crypto)
    case Halt(response) => Reply(response, users)
    case Proceed(fields) =>
      var username, password, role := Get(fields, "username"), Get(fields, "password"), Get(fields, "role");
      if !Truthy(username) || !Truthy(password) || !Truthy(role) then Reply(IncompleteData, users)
      else if db.Down? then Reply(InternalError, users)
      else if FindUser(users, username).Some? then Reply(UserExists, users)
      else match crypto.hash(password, SaltRounds)
        case Throw(_) => Reply(InternalError, users)
        case Ok(hash) => Reply(UserCreated, users + [User(username, hash, role)])
  }

  /** No request can make two users share a username. */
  lemma UsernamesStayUnique(req: Request, users: seq<User>, db: Db, crypto: Crypto)
    requires UniqueUsernames(users)
    ensures UniqueUsernames(Handle(req, users, db, crypto).store)
  {
    var r := Handle(req, users, db, crypto);
    if r.response == UserCreated {
      var u := NewUser(req, crypto.hash(Field(req, "password"), SaltRounds).value);
      assert r.store == users + [u];
      assert forall i :: 0 <= i < |users| ==> users[i].username != u.username;
    }
  }

  /** Adding the same username twice: the second request is refused and the
      collection stays as the first left it. */
  lemma SecondAddRefused(req: Request, users: seq<User>, db: Db, crypto: Crypto)
    requires Handle(req, users, db, crypto).response == UserCreated
    ensures var once := Handle(req, users, db, crypto).store;
      Handle(req, once, db, crypto) == Reply(UserExists, once)
  {
    var once := Handle(req, users, db, crypto).store;
    assert once[|users|].username == Field(req, "username");
  }
}

=== FILE: delete_profile.dfy ===
/**
 * `deleteProfile`: an admin removes the profile with a given id.
 */
module DeleteProfile {
  import opened Wrappers
  import opened Json
  import opened Documents
  import opened Http

  const Delete := "DELETE"

  const IdRequired := Response(400, Error("ID de perfil requerido"))
  const ProfileNotFound := Response(404, Error("Perfil no encontrado"))
  const ProfileDeleted := Response(200, Message("Perfil eliminado correctamente"))

  /** An admin's DELETE whose body parsed. */
  predicate Admitted(req: Request, crypto: Crypto) {
    req.httpMethod == Delete && AuthorizedAdmin(req, crypto) && Destructure(req.body).Ok?
  }

  /** The store was contacted with an id the `ObjectId` constructor accepted. */
  predicate ReachesDelete(req: Request, db: Db, crypto: Crypto) {
    Admitted(req, crypto) && Truthy(Field(req, "profileId")) && db.Up? && ParseObjectId(Field(req, "profileId")).Ok?
  }

  function Handle(req: Request, docs: seq<ProfileDoc>, db: Db, crypto: Crypto): (r: Reply<seq<ProfileDoc>>)
    ensures req.httpMethod == Options ==> r == Reply(Preflight, docs)
    ensures req.httpMethod != Options && req.httpMethod != Delete ==> r == Reply(MethodNotAllowed, docs)
    ensures r.response == MissingToken <==> req.httpMethod == Delete && !HasAuthHeader(req)
    ensures r.response == NotAuthorized <==>
      req.httpMethod == Delete && Authenticated(req, crypto) && !AuthorizedAdmin(req, crypto)
    ensures r.response == IdRequired <==> Admitted(req, crypto) && !Truthy(Field(req, "profileId"))
    ensures r.response == InternalError <==>
      || (req.httpMethod == Delete && HasAuthHeader(req) && !Authenticated(req, crypto))
      || (req.httpMethod == Delete && AuthorizedAdmin(req, crypto) && Destructure(req.body).Throw?)
      || (Admitted(req, crypto) && Truthy(Field(req, "profileId")) &&
          (db.Down? || ParseObjectId(Field(req, "profileId")).Throw?))
    ensures r.response == ProfileNotFound <==>
      ReachesDelete(req, db, crypto) && !Targets(req, docs)
    ensures r.response == ProfileDeleted <==>
      ReachesDelete(req, db, crypto) && Targets(req, docs)
    ensures r.response == ProfileDeleted ==> Some(r.store) == DeleteProfile(docs, TargetId(req))
    ensures r.response != ProfileDeleted ==> r.store == docs
  {
    match AdminGate(req, Delete, crypto)
    case Halt(response) => Reply(response, docs)
    case Proceed(fields) =>
      var profileId := Get(fields, "profileId");
      if !Truthy(profileId) then Reply(IdRequired, docs)
      else if db.Down? then Reply(InternalError, docs)
      else match ParseObjectId(profileId)
        case Throw(_) => Reply(InternalError, docs)
        case Ok(Generated) => Reply(ProfileNotFound, docs)
        case Ok(Hex(id)) =>
          match DeleteProfile(docs, id)
          case None => Reply(ProfileNotFound, docs)
          case Some(remaining) => Reply(ProfileDeleted, remaining)
  }

  /** A successful delete removes exactly the targeted profile: every other
      profile stays, the id is gone, and ids stay unique. */
  lemma DeleteRemovesOnlyTarget(req: Request, docs: seq<ProfileDoc>, db: Db, crypto: Crypto)
    requires UniqueIds(docs)
    requires Handle(req, docs, db, crypto).response == ProfileDeleted
    ensures var r := Handle(req, docs, db, crypto).store;
      && |r| == |docs| - 1
      && UniqueIds(r)
      && !HasProfile(r, TargetId(req))
      && (forall d :: d in docs && d.id != TargetId(req) ==> d in r)
      && (forall d :: d in r ==> d in docs)
  {
    DeleteRemovesExactlyOne(docs, TargetId(req));
  }

  /** Repeating a successful delete answers 404 and changes nothing more. */
  lemma SecondDeleteNotFound(req: Request, docs: seq<ProfileDoc>, db: Db, crypto: Crypto)
    requires UniqueIds(docs)
    requires Handle(req, docs, db, crypto).response == ProfileDeleted
    ensures var once := Handle(req, docs, db, crypto).store;
      Handle(req, once, db, crypto) == Reply(ProfileNotFound, once)
  {
    DeleteRemovesExactlyOne(docs, TargetId(req));
  }
}

=== FILE: documents.dfy ===
/**
 * The two collections of the document store, `users` and `profiles`, as
 * sequences of documents in natural (insertion) order, and the single-document
 * operations the handlers perform on them: `findOne`, `insertOne`,
 * `updateOne` with `$set`, and `deleteOne`.
 */
module Documents {
  import opened Wrappers
  import opened Json
  import opened Seqs

  /** A document of `users`: the password is stored as a bcrypt hash. */
  datatype User = User(username: Json, password: string, role: Json)

  /** A document of `profiles`; `id` is the canonical text of its `_id`. */
  datatype ProfileDoc = ProfileDoc(
    id: string,
    name: Json,
    photo: Json,
    links: seq<Json>,
    categories: seq<Json>,
    createdAt: Option<int>,
    updatedAt: Option<int>)

  /** No two users share a username. */
  ghost predicate UniqueUsernames(users: seq<User>) {
    forall i, j :: 0 <= i < j < |users| ==> users[i].username != users[j].username
  }

  /** No two profiles share an id (the `_id` index of the collection). */
  ghost predicate UniqueIds(docs: seq<ProfileDoc>) {
    forall i, j :: 0 <= i < j < |docs| ==> docs[i].id != docs[j].id
  }

  predicate HasUser(users: seq<User>, username: Json) {
    exists k :: 0 <= k < |users| && users[k].username == username
  }

  predicate HasProfile(docs: seq<ProfileDoc>, id: string) {
    exists k :: 0 <= k < |docs| && docs[k].id == id
  }

  /** The filter `{ _id: new ObjectId(v) }` selects a stored profile. A
      generated id is fresh, so it selects none. */
  predicate Selected(docs: seq<ProfileDoc>, arg: ObjectIdArg) {
    arg.Hex? && HasProfile(docs, arg.hex)
  }

  /** `users.findOne({ username })`: the first user with that username. */
  function FindUser(users: seq<User>, username: Json): (r: Option<User>)
    ensures r.None? <==> !HasUser(users, username)
    ensures r.Some? ==> r.value in users && r.value.username == username
    ensures r.Some? && UniqueUsernames(users) ==>
      forall k :: 0 <= k < |users| && users[k].username == username ==> users[k] == r.value
  {
    match FirstWhere(users, (u: User) => u.username == username)
    case None => None
    case Some(k) => Some(users[k])
  }

  const DuplicateKey := "E11000 duplicate key error collection: miApp.profiles index: _id_"

  /** `profiles.insertOne(doc)`: appended, unless its `_id` is taken, in which
      case the unique `_id` index makes the insert throw. */
  function InsertProfile(docs: seq<ProfileDoc>, doc: ProfileDoc): (r: Outcome<seq<ProfileDoc>>)
    ensures r.Ok? <==> !HasProfile(docs, doc.id)
    ensures r.Ok? ==> r.value == docs + [doc]
    ensures UniqueIds(docs) && r.Ok? ==> UniqueIds(r.value)
  {
    if HasProfile(docs, doc.id) then Throw(DuplicateKey) else Ok(docs + [doc])
  }

  /** The fields a `$set` on a profile overwrites. */
  datatype ProfileChanges = ProfileChanges(
    name: Json,
    photo: Json,
    links: seq<Json>,
    categories: seq<Json>,
    updatedAt: int)

  /** The document after `{ $set: changes }`: `_id` and `createdAt` are kept. */
  function SetFields(doc: ProfileDoc, changes: ProfileChanges): (r: ProfileDoc)
    ensures r.id == doc.id && r.createdAt == doc.createdAt
    ensures r.name == changes.name && r.photo == changes.photo
    ensures r.links == changes.links && r.categories == changes.categories
    ensures r.updatedAt == Some(changes.updatedAt)
  {
    doc.(name := changes.name, photo := changes.photo, links := changes.links,
         categories := changes.categories, updatedAt := Some(changes.updatedAt))
  }

  /** `profiles.updateOne({ _id: id }, { $set: changes })`: the first document
      with that id is changed in place; `None` when nothing matched. */
  function UpdateProfile(docs: seq<ProfileDoc>, id: string, changes: ProfileChanges): (r: Option<seq<ProfileDoc>>)
    ensures r.None? <==> !HasProfile(docs, id)
    ensures r.Some? ==> |r.value| == |docs| && exists k :: (
      && 0 <= k < |docs| && docs[k].id == id
      && (forall j :: 0 <= j < k ==> docs[j].id != id)
      && r.value[k] == SetFields(docs[k], changes)
      && (forall j :: 0 <= j < |docs| && j != k ==> r.value[j] == docs[j]))
  {
    match FirstWhere(docs, (d: ProfileDoc) => d.id == id)
    case None => None
    case Some(k) => Some(docs[k := SetFields(docs[k], changes)])
  }

  /** `profiles.deleteOne({ _id: id })`: the first document with that id is
      removed; `None` when nothing matched. */
  function DeleteProfile(docs: seq<ProfileDoc>, id: string): (r: Option<seq<ProfileDoc>>)
    ensures r.None? <==> !HasProfile(docs, id)
    ensures r.Some? ==> |r.value| == |docs| - 1 && exists k :: (
      && 0 <= k < |docs| && docs[k].id == id
      && (forall j :: 0 <= j < k ==> docs[j].id != id)
      && r.value == docs[..k] + docs[k + 1..])
  {
    match FirstWhere(docs, (d: ProfileDoc) => d.id == id)
    case None => None
    case Some(k) => Some(docs[..k] + docs[k + 1..])
  }

  /** An update keeps every id in its place, so ids stay unique. */
  lemma UpdateKeepsIds(docs: seq<ProfileDoc>, id: string, changes: ProfileChanges)
    requires UpdateProfile(docs, id, changes).Some?
    ensures var r := UpdateProfile(docs, id, changes).value;
      (forall j :: 0 <= j < |docs| ==> r[j].id == docs[j].id && r[j].createdAt == docs[j].createdAt)
      && (UniqueIds(docs) ==> UniqueIds(r))
  {
  }

  /** Removing position `k` shifts the later documents one place left. */
  lemma RemovedAt(docs: seq<ProfileDoc>, k: nat)
    requires k < |docs|
    ensures var r := docs[..k] + docs[k + 1..];
      |r| == |docs| - 1 && forall j :: 0 <= j < |r| ==> r[j] == docs[if j < k then j else j + 1]
  {
  }

  /** With unique ids a delete removes the one document with that id, keeps
      every other document, and leaves the id absent. */
  lemma {:induction false} DeleteRemovesExactlyOne(docs: seq<ProfileDoc>, id: string)
    requires UniqueIds(docs)
    requires DeleteProfile(docs, id).Some?
    ensures var r := DeleteProfile(docs, id).value;
      && UniqueIds(r)
      && !HasProfile(r, id)
      && (forall d :: d in docs && d.id != id ==> d in r)
      && (forall d :: d in r ==> d in docs && d.id != id)
  {
    var r := DeleteProfile(docs, id).value;
    var k :| 0 <= k < |docs| && docs[k].id == id && r == docs[..k] + docs[k + 1..];
    RemovedAt(docs, k);
    forall d | d in docs && d.id != id ensures d in r {
      var j :| 0 <= j < |docs| && docs[j] == d;
      if j < k {
        assert r[j] == d;
      } else {
        assert r[j - 1] == d;
      }
    }
    assert !HasProfile(r, id) by {
      forall j | 0 <= j < |r| ensures r[j].id != id {
        var o := if j < k then j else j + 1;
        assert r[j] == docs[o] && o != k;
      }
    }
  }
}

=== FILE: edit_profile.dfy ===
/**
 * `editProfile`: an admin replaces the name, photo, links and categories of
 * the profile with a given id and stamps it with the update time. A partial
 * update is not possible: all four fields are required.
 */
module EditProfile {
  import opened Wrappers
  import opened Json
  import opened Documents
  import opened Http

  const Put := "PUT"

  const ProfileNotFound := Response(404, Error("Perfil no encontrado"))
  const ProfileUpdated := Response(200, Message("Perfil actualizado correctamente"))

  /** An admin's PUT whose body parsed. */
  predicate Admitted(req: Request, crypto: Crypto) {
    req.httpMethod == Put && AuthorizedAdmin(req, crypto) && Destructure(req.body).Ok?
  }

  predicate Complete(req: Request) {
    && Truthy(Field(req, "profileId"))
    && Truthy(Field(req, "name")) && Truthy(Field(req, "photo"))
    && Truthy(Field(req, "links")) && Truthy(Field(req, "categories"))
  }

  /** The `$set` the request asks for, normalised as on insert. */
  function Changes(req: Request, now: int): (c: ProfileChanges)
    ensures c.name == Field(req, "name") && c.photo == Field(req, "photo") && c.updatedAt == now
    ensures Field(req, "links").Arr? ==> c.links == Field(req, "links").items
    ensures !Field(req, "links").Arr? ==> c.links == [Field(req, "links")]
    ensures Field(req, "categories").Arr? ==> c.categories == Field(req, "categories").items
    ensures !Field(req, "categories").Arr? ==> c.categories == [Field(req, "categories")]
  {
    ProfileChanges(Field(req, "name"), Field(req, "photo"),
      AsList(Field(req, "links")), AsList(Field(req, "categories")), now)
  }

  /** The store was contacted with an id the `ObjectId` constructor accepted. */
  predicate ReachesUpdate(req: Request, db: Db, crypto: Crypto) {
    Admitted(req, crypto) && Complete(req) && db.Up? && ParseObjectId(Field(req, "profileId")).Ok?
  }

  function Handle(req: Request, docs: seq<ProfileDoc>, db: Db, crypto: Crypto, now: int)
    : (r: Reply<seq<ProfileDoc>>)
    ensures req.httpMethod == Options ==> r == Reply(Preflight, docs)
    ensures req.httpMethod != Options && req.httpMethod != Put ==> r == Reply(MethodNotAllowed, docs)
    ensures r.response == MissingToken <==> req.httpMethod == Put && !HasAuthHeader(req)
    ensures r.response == NotAuthorized <==>
      req.httpMethod == Put && Authenticated(req, crypto) && !AuthorizedAdmin(req, crypto)
    ensures r.response == IncompleteData <==> Admitted(req, crypto) && !Complete(req)
    ensures r.response == InternalError <==>
      || (req.httpMethod == Put && HasAuthHeader(req) && !Authenticated(req, crypto))
      || (req.httpMethod == Put && AuthorizedAdmin(req, crypto) && Destructure(req.body).Throw?)
      || (Admitted(req, crypto) && Complete(req) &&
          (db.Down? || ParseObjectId(Field(req, "profileId")).Throw?))
    ensures r.response == ProfileNotFound <==>
      ReachesUpdate(req, db, crypto) && !Targets(req, docs)
    ensures r.response == ProfileUpdated <==>
      ReachesUpdate(req, db, crypto) && Targets(req, docs)
    ensures r.response == ProfileUpdated ==>
      Some(r.store) == UpdateProfile(docs, TargetId(req), Changes(req, now))
    ensures r.response != ProfileUpdated ==> r.store == docs
  {
    match AdminGate(req, Put, crypto)
    case Halt(response) => Reply(response, docs)
    case Proceed(fields) =>
      var profileId := Get(fields, "profileId");
      var name, photo := Get(fields, "name"), Get(fields, "photo");
      var links, categories := Get(fields, "links"), Get(fields, "categories");
      if !Truthy(profileId) || !Truthy(name) || !Truthy(photo) || !Truthy(links) || !Truthy(categories) then
        Reply(IncompleteData, docs)
      else if db.Down? then Reply(InternalError, docs)
      else
        var changes := ProfileChanges(name, photo, AsList(links), AsList(categories), now);
        match ParseObjectId(profileId)
        case Throw(_) => Reply(InternalError, docs)
        case Ok(Generated) => Reply(ProfileNotFound, docs)
        case Ok(Hex(id)) =>
          match UpdateProfile(docs, id, changes)
          case None => Reply(ProfileNotFound, docs)
          case Some(updated) => Reply(ProfileUpdated, updated)
  }

  /** A numeric `profileId` makes the constructor generate a fresh id, which
      selects no stored profile: the edit answers 404 and changes nothing. */
  lemma NumericIdNotFound(req: Request, docs: seq<ProfileDoc>, db: Db, crypto: Crypto, now: int)
    requires Admitted(req, crypto) && Complete(req) && db.Up? && Field(req, "profileId").Num?
    ensures Handle(req, docs, db, crypto, now) == Reply(ProfileNotFound, docs)
  {
  }

  /** A successful edit rewrites only the targeted profile's four fields and
      its update time; its id, its creation time and every other profile are
      untouched, and ids stay unique. */
  lemma EditTouchesOnlyTarget(req: Request, docs: seq<ProfileDoc>, db: Db, crypto: Crypto, now: int)
    requires UniqueIds(docs)
    requires Handle(req, docs, db, crypto, now).response == ProfileUpdated
    ensures var r := Handle(req, docs, db, crypto, now).store;
      && |r| == |docs|
      && UniqueIds(r)
      && forall j :: 0 <= j < |docs| ==>
           && r[j].id == docs[j].id
           && r[j].createdAt == docs[j].createdAt
           && (docs[j].id != TargetId(req) ==> r[j] == docs[j])
           && (docs[j].id == TargetId(req) ==> r[j] == SetFields(docs[j], Changes(req, now)))
  {
    var id := TargetId(req);
    var r := Handle(req, docs, db, crypto, now).store;
    UpdateKeepsIds(docs, id, Changes(req, now));
    var k :| 0 <= k < |docs| && docs[k].id == id
      && r[k] == SetFields(docs[k], Changes(req, now))
      && (forall j :: 0 <= j < |docs| && j != k ==> r[j] == docs[j]);
    forall j | 0 <= j < |docs|
      ensures docs[j].id == id ==> r[j] == SetFields(docs[j], Changes(req, now))
    {
      if docs[j].id == id {
        assert j == k;
      }
    }
  }
}

=== FILE: gallery.dfy ===
/**
 * The browser client's gallery state: the logged-in session, the full profile
 * list, the filtered list shown as cards, the category filter buttons and the
 * edit modal. Each event handler of the client is a function from the state
 * before the event to the state after it. Of the page itself only what the
 * handlers show or hide is kept: the admin panel, the card gallery, and the
 * role the cards were last drawn for (which decides their edit and delete
 * buttons); the markup is left out.
 */
module Gallery {
  import opened Wrappers
  import opened Text
  import opened Seqs
  import opened Roles

  /** The category value that matches every profile. */
  const AllCategories := "all"

  /** A profile as the client receives it from the list endpoint. */
  datatype Profile = Profile(
    id: string,
    name: string,
    photo: string,
    links: seq<string>,
    categories: seq<string>)

  /** The values of the edit modal's input fields. */
  datatype EditForm = EditForm(
    profileId: string,
    name: string,
    photo: string,
    links: string,
    categories: string)

  /** The fields sent to the create and edit endpoints, after list parsing. */
  datatype ProfileFields = ProfileFields(
    name: string,
    photo: string,
    links: seq<string>,
    categories: seq<string>)

  /** The client's module-level state, the input values it reads (`searchBox`
      and the edit form), and what the page shows: whether the admin panel and
      the card gallery are visible, and the role current when the cards were
      last drawn. The main screen is visible exactly while a token is held. */
  datatype State = State(
    token: Option<string>,
    role: Option<string>,
    all: seq<Profile>,
    filtered: seq<Profile>,
    activeCategory: string,
    searchBox: string,
    editing: Option<string>,
    form: EditForm,
    panelShown: bool,
    galleryShown: bool,
    cardsRole: Option<string>)

  const BlankForm := EditForm("", "", "", "", "")

  /** The state when the page loads: logged out, nothing listed or shown. */
  const Initial := State(None, None, [], [], AllCategories, "", None, BlankForm, false, false, None)

  // ---------------------------------------------------------------------------
  // Filtering.

  /** A profile is shown when its lower-cased name contains the (already
      lower-cased) search term and it carries the active category, unless the
      active category is the wildcard. */
  function Matches(p: Profile, term: string, category: string): (r: bool)
    ensures r <==>
      && (exists i :: OccursAt(Lower(p.name), term, i))
      && (category == AllCategories || exists j :: 0 <= j < |p.categories| && p.categories[j] == category)
  {
    IncludesIffOccurs(Lower(p.name), term);
    && Includes(Lower(p.name), term)
    && (category == AllCategories || category in p.categories)
  }

  /** `profiles.filter(p => Matches(p, term, category))`. */
  function Filter(profiles: seq<Profile>, term: string, category: string): (r: seq<Profile>)
    ensures |r| <= |profiles|
    ensures forall k :: 0 <= k < |r| ==> r[k] in profiles && Matches(r[k], term, category)
    decreases |profiles|
  {
    if |profiles| == 0 then []
    else
      var rest := Filter(profiles[1..], term, category);
      if Matches(profiles[0], term, category) then [profiles[0]] + rest else rest
  }

  /** The positions of the matching profiles, in increasing order: the
      reference the filter is checked against. */
  function MatchPositions(profiles: seq<Profile>, term: string, category: string): (idx: seq<nat>)
    decreases |profiles|
  {
    if |profiles| == 0 then []
    else
      var tail := Shift(MatchPositions(profiles[1..], term, category));
      if Matches(profiles[0], term, category) then [0] + tail else tail
  }

  /** The filter keeps exactly the matching profiles, in their original order:
      the result is the selection of the matching positions. */
  lemma {:induction false} FilterSelectsMatches(profiles: seq<Profile>, term: string, category: string)
    ensures Selects(MatchPositions(profiles, term, category), Filter(profiles, term, category), profiles)
    ensures forall i :: 0 <= i < |profiles| ==>
      (i in MatchPositions(profiles, term, category) <==> Matches(profiles[i], term, category))
    decreases |profiles|
  {
    if |profiles| > 0 {
      var x, rest := profiles[0], profiles[1..];
      assert profiles == [x] + rest;
      FilterSelectsMatches(rest, term, category);
      var tailIdx := MatchPositions(rest, term, category);
      var idx := MatchPositions(profiles, term, category);
      var sub := Filter(rest, term, category);
      SelectsShift(x, rest, sub, tailIdx);
      if Matches(x, term, category) {
        assert Filter(profiles, term, category) == [x] + sub;
      } else {
        assert Filter(profiles, term, category) == sub;
      }
      forall i | 0 <= i < |profiles|
        ensures i in idx <==> Matches(profiles[i], term, category)
      {
        if i > 0 {
          assert profiles[i] == rest[i - 1];
          ShiftMembership(tailIdx, i);
        }
      }
    }
  }

  /** Every position moved one place to the right. */
  function Shift(idx: seq<nat>): (r: seq<nat>)
    ensures |r| == |idx|
    ensures forall k :: 0 <= k < |r| ==> r[k] == idx[k] + 1
  {
    seq(|idx|, k requires 0 <= k < |idx| => idx[k] + 1)
  }

  lemma ShiftMembership(idx: seq<nat>, i: nat)
    requires i > 0
    ensures i in Shift(idx) <==> i - 1 in idx
  {
    if i - 1 in idx {
      var k :| 0 <= k < |idx| && idx[k] == i - 1;
      assert Shift(idx)[k] == i;
    }
  }

  /** A selection from `rest` is, shifted, a selection from `[x] + rest`; with
      position 0 in front it also selects `x`. */
  lemma SelectsShift(x: Profile, rest: seq<Profile>, sub: seq<Profile>, idx: seq<nat>)
    requires Selects(idx, sub, rest)
    ensures Selects(Shift(idx), sub, [x] + rest)
    ensures Selects([0] + Shift(idx), [x] + sub, [x] + rest)
  {
  }

  /** With an empty search term and the wildcard category nothing is hidden. */
  lemma {:induction false} FilterNothing(profiles: seq<Profile>)
    ensures Filter(profiles, Lower(""), AllCategories) == profiles
    decreases |profiles|
  {
    if |profiles| > 0 {
      FilterNothing(profiles[1..]);
      IncludesEmpty(Lower(profiles[0].name));
      assert [profiles[0]] + profiles[1..] == profiles;
    }
  }

  // ---------------------------------------------------------------------------
  // Rendering.

  /** `renderProfiles`: with nothing to show the gallery is hidden and keeps
      its old cards; otherwise the cards are redrawn, with edit and delete
      buttons exactly when the current role is the admin role. */
  function Render(st: State): (r: State)
    ensures r == st.(galleryShown := r.galleryShown, cardsRole := r.cardsRole)
    ensures r.galleryShown <==> |st.filtered| > 0
    ensures |st.filtered| > 0 ==> r.cardsRole == st.role
    ensures |st.filtered| == 0 ==> r.cardsRole == st.cardsRole
  {
    if |st.filtered| == 0 then st.(galleryShown := false)
    else st.(galleryShown := true, cardsRole := st.role)
  }

  /** The admin panel is visible. */
  predicate ShowsAdminPanel(st: State) {
    st.panelShown
  }

  /** Cards with edit and delete buttons are on screen: the main screen and
      the gallery are visible and the cards were drawn for the admin role. */
  predicate ShowsCardButtons(st: State) {
    st.token.Some? && st.galleryShown && st.cardsRole == Some(AdminRole)
  }

  /** `applyFilters`: recompute the shown list from the full list, the search
      box and the active category, and redraw; nothing else changes. */
  function ApplyFilters(st: State): (r: State)
    ensures r == st.(filtered := r.filtered, galleryShown := r.galleryShown, cardsRole := r.cardsRole)
    ensures r.filtered == Filter(st.all, Lower(st.searchBox), st.activeCategory)
    ensures forall k :: 0 <= k < |r.filtered| ==>
      r.filtered[k] in st.all && Matches(r.filtered[k], Lower(st.searchBox), st.activeCategory)
    ensures r.galleryShown <==> |r.filtered| > 0
    ensures |r.filtered| > 0 ==> r.cardsRole == st.role
    ensures |r.filtered| == 0 ==> r.cardsRole == st.cardsRole
  {
    Render(st.(filtered := Filter(st.all, Lower(st.searchBox), st.activeCategory)))
  }

  /** The shown list depends only on the full list, the search box and the
      active category, never on what was shown before. */
  lemma ApplyFiltersForgetsPrevious(s1: State, s2: State)
    requires s1.all == s2.all && s1.searchBox == s2.searchBox
    requires s1.activeCategory == s2.activeCategory
    ensures ApplyFilters(s1).filtered == ApplyFilters(s2).filtered
    ensures ApplyFilters(ApplyFilters(s1)) == ApplyFilters(s1)
  {
  }

  /** `filterByCategory`: select one category (or the wildcard) and refilter. */
  function FilterByCategory(st: State, category: string): (r: State)
    ensures r.activeCategory == category
    ensures r == st.(activeCategory := category, filtered := r.filtered,
                     galleryShown := r.galleryShown, cardsRole := r.cardsRole)
    ensures r.filtered == Filter(st.all, Lower(st.searchBox), category)
    ensures forall k :: 0 <= k < |r.filtered| ==> Matches(r.filtered[k], Lower(st.searchBox), category)
    ensures r.galleryShown <==> |r.filtered| > 0
  {
    ApplyFilters(st.(activeCategory := category))
  }

  /** Choosing "Todos" with an empty search box shows the whole list again, in order. */
  lemma ChooseAllShowsEverything(st: State)
    requires st.searchBox == ""
    ensures FilterByCategory(st, AllCategories).filtered == st.all
  {
    FilterNothing(st.all);
  }

  /** Choosing the same category twice is choosing it once, whatever the state. */
  lemma ChooseCategoryIdempotent(st: State, category: string)
    ensures FilterByCategory(FilterByCategory(st, category), category) == FilterByCategory(st, category)
  {
  }

  // ---------------------------------------------------------------------------
  // Category filter buttons.

  /** Every category of every profile, profile by profile, in order. */
  function AllProfileCategories(profiles: seq<Profile>): (r: seq<string>)
    decreases |profiles|
  {
    if |profiles| == 0 then [] else profiles[0].categories + AllProfileCategories(profiles[1..])
  }

  lemma {:induction false} AllProfileCategoriesContents(profiles: seq<Profile>, c: string)
    ensures c in AllProfileCategories(profiles) <==>
      exists i :: 0 <= i < |profiles| && c in profiles[i].categories
    decreases |profiles|
  {
    if |profiles| > 0 {
      AllProfileCategoriesContents(profiles[1..], c);
      if c in AllProfileCategories(profiles[1..]) {
        var i :| 0 <= i < |profiles[1..]| && c in profiles[1..][i].categories;
        assert c in profiles[i + 1].categories;
      }
      if i :| 0 <= i < |profiles| && c in profiles[i].categories {
        if i > 0 {
          assert c in profiles[1..][i - 1].categories;
        }
      }
    }
  }

  /** The categories offered as filter buttons (besides "Todos"), in the order
      a `Set` filled profile by profile yields them. */
  function CategoryButtons(profiles: seq<Profile>): (r: seq<string>)
    ensures NoDup(r)
  {
    Dedup(AllProfileCategories(profiles))
  }

  /** The buttons offer every category of every profile exactly once, nothing
      else, in order of first appearance. */
  lemma CategoryButtonsExact(profiles: seq<Profile>)
    ensures NoDup(CategoryButtons(profiles))
    ensures forall c :: c in CategoryButtons(profiles) <==>
      exists i :: 0 <= i < |profiles| && c in profiles[i].categories
    ensures forall i, j :: 0 <= i < j < |CategoryButtons(profiles)| ==>
      FirstIndex(AllProfileCategories(profiles), CategoryButtons(profiles)[i])
      < FirstIndex(AllProfileCategories(profiles), CategoryButtons(profiles)[j])
  {
    var all := AllProfileCategories(profiles);
    var r := CategoryButtons(profiles);
    forall c ensures c in r <==> exists i :: 0 <= i < |profiles| && c in profiles[i].categories {
      AllProfileCategoriesContents(profiles, c);
      if c in all {
        var k :| 0 <= k < |all| && all[k] == c;
        assert all[k] in r;
      }
    }
    DedupFirstOccurrenceOrder(all);
  }

  // ---------------------------------------------------------------------------
  // Session and reload.

  /** A successful login stores the token and role the service returned and
      shows the main screen; the admin panel is revealed for the admin role
      but never hidden here. The profile load that follows is `Reload`. */
  function LoginSucceeded(st: State, token: string, role: string): (r: State)
    ensures r.token == Some(token) && r.role == Some(role)
    ensures r.panelShown <==> st.panelShown || role == AdminRole
    ensures r == st.(token := r.token, role := r.role, panelShown := r.panelShown)
  {
    st.(token := Some(token), role := Some(role), panelShown := st.panelShown || role == AdminRole)
  }

  /** `logout`: forget the token and the role and hide the main screen and the
      admin panel; the profile lists and the drawn cards are kept. */
  function Logout(st: State): (r: State)
    ensures r.token.None? && r.role.None?
    ensures !ShowsAdminPanel(r) && !ShowsCardButtons(r)
    ensures r == st.(token := None, role := None, panelShown := false)
  {
    st.(token := None, role := None, panelShown := false)
  }

  /** Logging out after logging in from a logged-out page restores the page
      exactly: the two handlers are inverse. */
  lemma LogoutUndoesLogin(st: State, token: string, role: string)
    requires st.token.None? && st.role.None? && !st.panelShown
    ensures Logout(LoginSucceeded(st, token, role)) == st
  {
  }

  /** The first login of a fresh page, then a logout, leaves the fresh page. */
  lemma FreshLoginLogout(token: string, role: string)
    ensures Logout(LoginSucceeded(Initial, token, role)) == Initial
    ensures ShowsAdminPanel(LoginSucceeded(Initial, token, role)) <==> role == AdminRole
  {
    LogoutUndoesLogin(Initial, token, role);
  }

  /** The admin panel follows the role of the current session when the
      session started from a logged-out page (every logout hides it), and no
      admin control is visible after a logout. */
  lemma AdminControlsFollowRole(st: State, token: string, role: string)
    requires !st.panelShown
    ensures ShowsAdminPanel(LoginSucceeded(st, token, role)) <==> role == AdminRole
    ensures !ShowsAdminPanel(Logout(LoginSucceeded(st, token, role)))
    ensures !ShowsCardButtons(Logout(LoginSucceeded(st, token, role)))
  {
  }

  /** `loadProfiles` after a successful response: the full list is replaced
      and shown unfiltered, whatever search term and category are active, and
      the cards are redrawn for the current role. */
  function Reload(st: State, profiles: seq<Profile>): (r: State)
    ensures r.all == profiles && r.filtered == r.all
    ensures r == st.(all := profiles, filtered := profiles,
                     galleryShown := r.galleryShown, cardsRole := r.cardsRole)
    ensures r.galleryShown <==> |profiles| > 0
    ensures |profiles| > 0 ==> r.cardsRole == st.role
    ensures |profiles| == 0 ==> r.cardsRole == st.cardsRole
  {
    Render(st.(all := profiles, filtered := profiles))
  }

  /** A login followed by a successful, non-empty profile load shows card
      buttons exactly for the admin role. */
  lemma CardButtonsFollowRole(st: State, token: string, role: string, profiles: seq<Profile>)
    requires |profiles| > 0
    ensures ShowsCardButtons(Reload(LoginSucceeded(st, token, role), profiles)) <==> role == AdminRole
  {
  }

  /** The cards keep the role they were drawn for. An admin logs in and the
      profiles load; the admin logs out and a member logs in, and the profile
      load fails: the member now sees the admin's edit and delete buttons
      (the service still refuses the member's requests). */
  lemma StaleCardButtons(adminToken: string, memberToken: string, profiles: seq<Profile>)
    requires |profiles| > 0
    ensures var admin := Reload(LoginSucceeded(Initial, adminToken, AdminRole), profiles);
      var member := LoginSucceeded(Logout(admin), memberToken, "member");
      && member.role == Some("member")
      && !ShowsAdminPanel(member)
      && ShowsCardButtons(member)
  {
  }

  /** After a reload the shown list ignores an active filter: when some
      profile does not match, it is shown anyway until the filter is applied
      again. */
  lemma ReloadIgnoresActiveFilter(st: State, profiles: seq<Profile>, i: nat)
    requires i < |profiles|
    requires !Matches(profiles[i], Lower(st.searchBox), st.activeCategory)
    ensures profiles[i] in Reload(st, profiles).filtered
    ensures Reload(st, profiles).filtered != ApplyFilters(Reload(st, profiles)).filtered
  {
  }

  // ---------------------------------------------------------------------------
  // The edit modal and the form fields.

  /** Position `k` holds the first profile with id `id`. */
  predicate FirstWithId(all: seq<Profile>, id: string, k: int) {
    0 <= k < |all| && all[k].id == id && forall j :: 0 <= j < k ==> all[j].id != id
  }

  /** The form `openEditModal` fills in for a profile: its lists joined with ", ". */
  function FormFor(p: Profile): EditForm {
    EditForm(p.id, p.name, p.photo, FormatList(p.links), FormatList(p.categories))
  }

  /** `openEditModal`: fill the form from the first profile with that id;
      an unknown id changes nothing. */
  function OpenEditModal(st: State, id: string): (r: State)
    ensures (forall k :: 0 <= k < |st.all| ==> st.all[k].id != id) ==> r == st
    ensures forall k :: FirstWithId(st.all, id, k) ==>
      r == st.(editing := Some(id), form := FormFor(st.all[k]))
  {
    match FirstWhere(st.all, (p: Profile) => p.id == id)
    case None => st
    case Some(k) =>
      assert forall k' :: FirstWithId(st.all, id, k') ==> k' == k;
      st.(editing := Some(id), form := FormFor(st.all[k]))
  }

  /** `closeEditModal`: reset the form and forget the profile being edited. */
  function CloseEditModal(st: State): (r: State)
    ensures r.editing.None? && r.form == BlankForm
    ensures r.all == st.all && r.filtered == st.filtered && r.token == st.token
    ensures r == st.(editing := None, form := BlankForm)
  {
    st.(editing := None, form := BlankForm)
  }

  /** Closing the modal undoes opening it: whichever profile was opened, the
      page is as if it had only been closed. */
  lemma CloseUndoesOpen(st: State, id: string)
    ensures CloseEditModal(OpenEditModal(st, id)) == CloseEditModal(st)
  {
  }

  /** The fields the create and edit forms submit: both list fields are split
      on commas and trimmed. */
  function SubmittedFields(name: string, photo: string, links: string, categories: string): (r: ProfileFields)
    ensures r.name == name && r.photo == photo
    ensures r.links == ParseList(links) && r.categories == ParseList(categories)
    ensures |r.links| == multiset(links)[','] + 1
    ensures |r.categories| == multiset(categories)[','] + 1
  {
    ProfileFields(name, photo, ParseList(links), ParseList(categories))
  }

  /** Opening the edit modal on a profile and submitting it untouched sends
      the profile's own fields back, as long as its link and category lists
      are non-empty and hold trimmed, comma-free entries. */
  lemma EditUntouchedRoundTrip(st: State, k: nat)
    requires k < |st.all|
    requires forall j :: 0 <= j < k ==> st.all[j].id != st.all[k].id
    requires |st.all[k].links| >= 1 && |st.all[k].categories| >= 1
    requires forall i :: 0 <= i < |st.all[k].links| ==>
      Trimmed(st.all[k].links[i]) && ',' !in st.all[k].links[i]
    requires forall i :: 0 <= i < |st.all[k].categories| ==>
      Trimmed(st.all[k].categories[i]) && ',' !in st.all[k].categories[i]
    ensures var f := OpenEditModal(st, st.all[k].id).form;
      f.profileId == st.all[k].id &&
      SubmittedFields(f.name, f.photo, f.links, f.categories)
        == ProfileFields(st.all[k].name, st.all[k].photo, st.all[k].links, st.all[k].categories)
  {
    var p := st.all[k];
    var found := FirstWhere(st.all, (q: Profile) => q.id == p.id);
    assert found == Some(k);
    ParseFormatRoundTrip(p.links);
    ParseFormatRoundTrip(p.categories);
  }
}

=== FILE: get_profiles.dfy ===
/**
 * `getProfiles`: the public listing. Any caller may read every profile; no
 * token is asked for and the collection is never written.
 */
module GetProfiles {
  import opened Wrappers
  import opened Documents
  import opened Http

  const GetMethod := "GET"

  function Handle(req: Request, docs: seq<ProfileDoc>, db: Db): (r: Response)
    ensures req.httpMethod == Options ==> r == Preflight
    ensures req.httpMethod != Options && req.httpMethod != GetMethod ==> r == MethodNotAllowed
    ensures r.status == 500 <==> req.httpMethod == GetMethod && db.Down?
    ensures r.status == 500 ==> r == InternalError
    ensures r.payload.Listing? <==> req.httpMethod == GetMethod && db.Up?
    ensures r.payload.Listing? ==> r.status == 200 && r.payload.profiles == docs
  {
    if req.httpMethod == Options then Preflight
    else if req.httpMethod != GetMethod then MethodNotAllowed
    else if db.Down? then InternalError
    else Response(200, Listing(docs))
  }

  /** The listing ignores the `Authorization` header and the body: an
      anonymous GET sees exactly what an admin's GET sees. */
  lemma ListingIsPublic(req: Request, auth: Option<string>, body: Body, docs: seq<ProfileDoc>, db: Db)
    requires req.httpMethod == GetMethod && db.Up?
    ensures Handle(req.(authorization := auth, body := body), docs, db) == Handle(req, docs, db)
    ensures Handle(req, docs, db) == Response(200, Listing(docs))
  {
  }
}

=== FILE: http.dfy ===
/**
 * What the serverless handlers share: the request and response shapes, the
 * uninterpreted token and password services, the store's reachability, the
 * `Authorization` header parsing and the ladder every admin-only handler runs
 * before touching the store (method, header, token, role, body).
 */
module Http {
  import opened Wrappers
  import opened Text
  import opened Json
  import opened Documents
  import Roles

  /** `event.body` after `JSON.parse`: `Malformed` when the parse throws. */
  datatype Body = Malformed(reason: string) | Parsed(value: Json)

  /** The parts of a Netlify event the handlers read. */
  datatype Request = Request(httpMethod: string, authorization: Option<string>, body: Body)

  /** A response body: empty, `{error}`, `{message}`, `{token, role}` or the
      profile list. */
  datatype Payload =
    | NoContent
    | Error(error: string)
    | Message(message: string)
    | Session(token: string, role: Json)
    | Listing(profiles: seq<ProfileDoc>)

  datatype Response = Response(status: int, payload: Payload)

  /** A response together with the collection as the handler leaves it. */
  datatype Reply<S> = Reply(response: Response, store: S)

  /** Whether the store can be reached; `Down` carries the driver's message. */
  datatype Db = Up | Down(message: string)

  /** The payload a token carries. */
  datatype Claims = Claims(username: Json, role: Json)

  /** The token and password libraries, left uninterpreted:
      `verify` checks a token's signature and expiry and yields its claims,
      `sign` issues a token with the given lifetime, `compare` checks a
      password against a bcrypt hash, `hash` hashes with the given cost.
      Each may throw. */
  datatype Crypto = Crypto(
    verify: string -> Outcome<Claims>,
    sign: (Claims, string) -> Outcome<string>,
    compare: (Json, string) -> Outcome<bool>,
    hash: (Json, int) -> Outcome<string>)

  const Options := "OPTIONS"
  const Post := "POST"

  /** The role claim that admits a caller to the admin handlers: the same
      name the client checks before showing admin controls. */
  const AdminRole := Str(Roles.AdminRole)

  const Preflight := Response(200, NoContent)
  const MethodNotAllowed := Response(405, Error("Método no permitido"))
  const MissingToken := Response(401, Error("Falta token"))
  const NotAuthorized := Response(403, Error("No autorizado"))
  const InternalError := Response(500, Error("Error interno del servidor"))
  const IncompleteData := Response(400, Error("Datos incompletos"))

  /** The message `jwt.verify` throws when given no token at all. */
  const NoTokenGiven := "jwt must be provided"

  /** The message of the `TypeError` thrown when destructuring a `null` body. */
  const NullBody := "Cannot destructure the parsed body: it is null"

  /** `if (!authHeader)`: the header is absent or empty. */
  predicate HasAuthHeader(req: Request) {
    req.authorization.Some? && |req.authorization.value| > 0
  }

  /** `authHeader.split(" ")[1]`: the second space-separated piece, if any.
      The scheme in front of it is not inspected. */
  function TokenOf(header: string): (r: Option<string>)
    ensures r.Some? <==> ' ' in header
    ensures r.Some? ==> ' ' !in r.value
    ensures r.Some? ==> r.value == Split(header, ' ')[1]
  {
    var pieces := Split(header, ' ');
    if |pieces| >= 2 then Some(pieces[1]) else None
  }

  /** Whatever word stands before the space, the token after it is used:
      `Bearer` is never checked. */
  lemma AnySchemeAccepted(scheme: string, token: string)
    requires ' ' !in scheme && ' ' !in token
    ensures TokenOf(scheme + " " + token) == Some(token)
  {
    SplitAtSeparator(scheme, ' ', token);
    SplitFree(token, ' ');
  }

  /** The token is the text between the first and the second space; the
      rest of the header is ignored. */
  lemma TokenBetweenSpaces(scheme: string, token: string, rest: string)
    requires ' ' !in scheme && ' ' !in token
    ensures TokenOf(scheme + " " + token + " " + rest) == Some(token)
  {
    SplitAtSeparator(token, ' ', rest);
    assert scheme + " " + token + " " + rest == scheme + [' '] + (token + [' '] + rest);
    SplitAtSeparator(scheme, ' ', token + [' '] + rest);
  }

  /** `jwt.verify(authHeader.split(" ")[1], JWT_SECRET)`. A missing or empty
      token is refused by `verify` itself before any signature check; any
      other token goes to the signature check. */
  function Authenticate(header: string, crypto: Crypto): (r: Outcome<Claims>)
    ensures TokenOf(header).None? ==> r == Throw(NoTokenGiven)
    ensures TokenOf(header) == Some("") ==> r == Throw(NoTokenGiven)
    ensures TokenOf(header).Some? && TokenOf(header).value != "" ==> r == crypto.verify(TokenOf(header).value)
  {
    match TokenOf(header)
    case None => Throw(NoTokenGiven)
    case Some(token) => if |token| == 0 then Throw(NoTokenGiven) else crypto.verify(token)
  }

  /** A header that ends right after the scheme, like `Bearer `, carries an
      empty token and is refused without consulting the secret. */
  lemma EmptyTokenRefused(scheme: string, crypto: Crypto)
    requires ' ' !in scheme
    ensures Authenticate(scheme + " ", crypto) == Throw(NoTokenGiven)
  {
    SplitAtSeparator(scheme, ' ', "");
    SplitFree("", ' ');
    assert scheme + " " == scheme + [' '] + "";
  }

  /** `const { ... } = JSON.parse(event.body)`: the parsed value, or the
      exception parsing or destructuring throws. */
  function Destructure(body: Body): (r: Outcome<Json>)
    ensures r.Ok? <==> body.Parsed? && !body.value.Null? && !body.value.Undefined?
    ensures r.Ok? ==> r.value == body.value
    ensures body.Malformed? ==> r == Throw(body.reason)
  {
    match body
    case Malformed(reason) => Throw(reason)
    case Parsed(v) => if v.Null? || v.Undefined? then Throw(NullBody) else Ok(v)
  }

  /** A destructured body field: `undefined` when the body did not parse. */
  function Field(req: Request, key: string): (v: Json)
    ensures Destructure(req.body).Ok? ==> v == Get(req.body.value, key)
    ensures Destructure(req.body).Throw? ==> v == Undefined
  {
    match Destructure(req.body)
    case Throw(_) => Undefined
    case Ok(fields) => Get(fields, key)
  }

  /** The header is present and its token verifies. */
  predicate Authenticated(req: Request, crypto: Crypto) {
    HasAuthHeader(req) && Authenticate(req.authorization.value, crypto).Ok?
  }

  /** The header is present and its token verifies to claims with the admin role. */
  predicate AuthorizedAdmin(req: Request, crypto: Crypto) {
    Authenticated(req, crypto) && Authenticate(req.authorization.value, crypto).value.role == AdminRole
  }

  /** Outcome of the shared ladder: go on with the parsed body, or answer. */
  datatype Gate = Proceed(fields: Json) | Halt(response: Response)

  /** The ladder of every admin-only handler, in source order: preflight,
      method, header, token, role, body. A token that fails verification
      throws, which the handler's catch turns into a 500. */
  function AdminGate(req: Request, verb: string, crypto: Crypto): (g: Gate)
    requires verb != Options
    ensures req.httpMethod == Options ==> g == Halt(Preflight)
    ensures req.httpMethod != Options && req.httpMethod != verb ==> g == Halt(MethodNotAllowed)
    ensures g == Halt(MissingToken) <==> req.httpMethod == verb && !HasAuthHeader(req)
    ensures g == Halt(NotAuthorized) <==>
      req.httpMethod == verb && Authenticated(req, crypto) && !AuthorizedAdmin(req, crypto)
    ensures g == Halt(InternalError) <==>
      req.httpMethod == verb && HasAuthHeader(req) &&
      (!Authenticated(req, crypto) || (AuthorizedAdmin(req, crypto) && Destructure(req.body).Throw?))
    ensures g.Proceed? <==>
      req.httpMethod == verb && AuthorizedAdmin(req, crypto) && Destructure(req.body).Ok?
    ensures g.Proceed? ==> g.fields == req.body.value
    ensures g.Halt? ==> g.response in {Preflight, MethodNotAllowed, MissingToken, NotAuthorized, InternalError}
  {
    if req.httpMethod == Options then Halt(Preflight)
    else if req.httpMethod != verb then Halt(MethodNotAllowed)
    else if !HasAuthHeader(req) then Halt(MissingToken)
    else match Authenticate(req.authorization.value, crypto)
      case Throw(_) => Halt(InternalError)
      case Ok(claims) =>
        if claims.role != AdminRole then Halt(NotAuthorized)
        else match Destructure(req.body)
          case Throw(_) => Halt(InternalError)
          case Ok(fields) => Proceed(fields)
  }

  /** The stored profile the `profileId` of the request selects, if any. */
  predicate Targets(req: Request, docs: seq<ProfileDoc>)
    requires ParseObjectId(Field(req, "profileId")).Ok?
  {
    Selected(docs, ParseObjectId(Field(req, "profileId")).value)
  }

  /** The canonical id the request names. */
  function TargetId(req: Request): (id: string)
    requires ParseObjectId(Field(req, "profileId")).Ok?
    requires ParseObjectId(Field(req, "profileId")).value.Hex?
    ensures IsCanonicalId(id)
  {
    ParseObjectId(Field(req, "profileId")).value.hex
  }
}

=== FILE: json.dfy ===
/**
 * JSON values as the handlers see them after `JSON.parse`, with JavaScript's
 * truthiness, property access, the handlers' scalar-to-list normalisation and
 * the `ObjectId` constructor's acceptance of profile ids.
 */
module Json {
  import opened Wrappers
  import opened Text

  /** A JavaScript value produced by `JSON.parse` (plus `undefined`, the value
      of an absent property). Numbers are integers here. */
  datatype Json =
    | Undefined
    | Null
    | Bool(b: bool)
    | Num(n: int)
    | Str(s: string)
    | Arr(items: seq<Json>)
    | Obj(fields: map<string, Json>)

  /** JavaScript truthiness: `undefined`, `null`, `false`, `0` and `""` are
      falsy; every array and object, even an empty one, is truthy. */
  function Truthy(v: Json): (r: bool)
    ensures !r <==> v in {Undefined, Null, Bool(false), Num(0), Str("")}
  {
    match v
    case Undefined => false
    case Null => false
    case Bool(b) => b
    case Num(n) => n != 0
    case Str(s) => |s| > 0
    case Arr(_) => true
    case Obj(_) => true
  }

  /** Property access `v[key]` on a value that is not `null`/`undefined`:
      an object's own field, `undefined` for a missing field or a non-object. */
  function Get(v: Json, key: string): (r: Json)
    ensures v.Obj? && key in v.fields ==> r == v.fields[key]
    ensures !(v.Obj? && key in v.fields) ==> !Truthy(r)
  {
    if v.Obj? && key in v.fields then v.fields[key] else Undefined
  }

  /** `Array.isArray(v) ? v : [v]`. */
  function AsList(v: Json): (r: seq<Json>)
    ensures v.Arr? ==> r == v.items
    ensures !v.Arr? ==> |r| == 1 && r[0] == v
  {
    if v.Arr? then v.items else [v]
  }

  /** Normalising an already normalised list changes nothing, and a scalar
      that passed the presence check yields a non-empty list. */
  lemma AsListNormalised(v: Json)
    ensures AsList(Arr(AsList(v))) == AsList(v)
    ensures !v.Arr? && Truthy(v) ==> |AsList(v)| == 1 && Truthy(AsList(v)[0])
  {
  }

  // ---------------------------------------------------------------------------
  // ObjectId.

  predicate IsHexDigit(c: char) {
    ('0' <= c <= '9') || ('a' <= c <= 'f') || ('A' <= c <= 'F')
  }

  /** The canonical text of an ObjectId: 24 lower-case hexadecimal digits. */
  predicate IsCanonicalId(s: string) {
    |s| == 24 && forall i :: 0 <= i < |s| ==> IsHexDigit(s[i]) && !IsUpperAscii(s[i])
  }

  /** The bson `ObjectId` constructor's three error messages. */
  const IdNotText := "Argument passed in must have an id that is of type string or Buffer"
  const InvalidObjectId := "input must be a 24 character hex string, 12 byte Uint8Array, or an integer"
  const UnacceptedType := "Argument passed in does not match the accepted types"

  /** What `new ObjectId(v)` builds the id from: the hex text it was given,
      or nothing, in which case it generates a fresh id. */
  datatype ObjectIdArg =
    | Hex(hex: string)
    | Generated

  /** 24 hexadecimal digits, in either case. */
  predicate IsHexText(s: string) {
    |s| == 24 && forall i :: 0 <= i < |s| ==> IsHexDigit(s[i])
  }

  /** The constructor on a string: only 24 hex digits are accepted. */
  function FromHex(s: string): (r: Outcome<ObjectIdArg>)
    ensures r.Ok? <==> IsHexText(s)
    ensures r.Ok? ==> r.value == Hex(Lower(s)) && IsCanonicalId(r.value.hex)
    ensures r.Throw? ==> r.message == InvalidObjectId
  {
    if IsHexText(s) then Ok(Hex(Lower(s))) else Throw(InvalidObjectId)
  }

  /** `new ObjectId(v)` for a profile id from a request body. A string must
      be 24 hex digits (case is ignored); an object is replaced by its `id`
      property, which must then be such a string; `null`, `undefined` and
      numbers make the constructor generate a fresh id; anything else
      throws. */
  function ParseObjectId(v: Json): (r: Outcome<ObjectIdArg>)
    ensures r == Ok(Generated) <==> v.Undefined? || v.Null? || v.Num?
    ensures (r.Ok? && r.value.Hex?) <==>
      || (v.Str? && IsHexText(v.s))
      || (v.Obj? && "id" in v.fields && v.fields["id"].Str? && IsHexText(v.fields["id"].s))
    ensures r.Ok? && r.value.Hex? ==> IsCanonicalId(r.value.hex)
    ensures v.Str? && r.Ok? ==> r.value == Hex(Lower(v.s))
    ensures v.Obj? && r.Ok? ==> r.value == Hex(Lower(v.fields["id"].s))
    ensures v.Bool? || v.Arr? || (v.Obj? && "id" !in v.fields) ==> r == Throw(UnacceptedType)
    ensures v.Str? && !IsHexText(v.s) ==> r == Throw(InvalidObjectId)
    ensures (v.Obj? && "id" in v.fields && v.fields["id"].Str? && !IsHexText(v.fields["id"].s)) ==>
      r == Throw(InvalidObjectId)
    ensures (v.Obj? && "id" in v.fields && !v.fields["id"].Str?) ==> r == Throw(IdNotText)
  {
    match v
    case Undefined => Ok(Generated)
    case Null => Ok(Generated)
    case Num(_) => Ok(Generated)
    case Str(s) => FromHex(s)
    case Obj(fields) =>
      if "id" !in fields then Throw(UnacceptedType)
      else if fields["id"].Str? then FromHex(fields["id"].s)
      else Throw(IdNotText)
    case _ => Throw(UnacceptedType)
  }

  /** A canonical id, as the client receives it in `_id`, parses to itself. */
  lemma CanonicalIdParsesToItself(s: string)
    requires IsCanonicalId(s)
    ensures ParseObjectId(Str(s)) == Ok(Hex(s))
  {
    assert Lower(s) == s;
  }

  /** An object carrying the id text in `id` is read exactly as the bare
      text, errors included. */
  lemma WrappedIdReadsAsText(s: string)
    ensures ParseObjectId(Obj(map["id" := Str(s)])) == ParseObjectId(Str(s))
  {
  }

  /** The case of the hex digits does not matter. */
  lemma IdCaseIgnored(s: string)
    ensures ParseObjectId(Str(Lower(s))) == ParseObjectId(Str(s))
  {
    assert IsHexText(Lower(s)) <==> IsHexText(s) by {
      assert forall i :: 0 <= i < |s| ==> (IsHexDigit(Lower(s)[i]) <==> IsHexDigit(s[i]));
    }
    LowerIdempotent(s);
  }
}

=== FILE: login.dfy ===
/**
 * `login`: checks a username and password against the users collection and
 * issues a two-hour token carrying the user's username and role.
 */
module Login {
  import opened Wrappers
  import opened Json
  import opened Documents
  import opened Http

  /** Which of the two environment variables are set. */
  datatype Env = Env(mongoUri: bool, jwtSecret: bool)

  /** The `expiresIn` option of every issued token. */
  const TokenLifetime := "2h"

  const ConfigError := Response(500, Error("Error de configuración del servidor"))
  const MissingCredentials := Response(400, Error("Usuario y contraseña requeridos"))
  const InvalidCredentials := Response(401, Error("Credenciales inválidas"))

  /** Every caught exception is reported with its message after this prefix. */
  const FaultPrefix := "Error interno del servidor: "

  function Fault(message: string): (r: Response)
    ensures r.status == 500 && r.payload.Error?
    ensures |r.payload.error| >= |FaultPrefix| && r.payload.error[..|FaultPrefix|] == FaultPrefix
    ensures r.payload.error[|FaultPrefix|..] == message
  {
    Response(500, Error(FaultPrefix + message))
  }

  /** A POST reaching the body: both environment variables are set. */
  predicate Configured(req: Request, env: Env) {
    req.httpMethod == Post && env.mongoUri && env.jwtSecret
  }

  /** The body parsed and carries a non-empty username and password. */
  predicate HasCredentials(req: Request) {
    Destructure(req.body).Ok? && Truthy(Field(req, "username")) && Truthy(Field(req, "password"))
  }

  /** The store was asked for the user: every earlier rung passed. */
  predicate ReachesStore(req: Request, env: Env, db: Db) {
    Configured(req, env) && HasCredentials(req) && db.Up?
  }

  /** `bcrypt.compare` of the given password with the stored user's hash. */
  function Verdict(req: Request, users: seq<User>, crypto: Crypto): Outcome<bool>
    requires HasUser(users, Field(req, "username"))
  {
    crypto.compare(Field(req, "password"), FindUser(users, Field(req, "username")).value.password)
  }

  /** The password oracle accepts the password for the stored user. */
  predicate PasswordAccepted(req: Request, users: seq<User>, crypto: Crypto)
    requires HasUser(users, Field(req, "username"))
  {
    Verdict(req, users, crypto) == Ok(true)
  }

  /** `jwt.sign` over the stored user's username and role. */
  function Signing(req: Request, users: seq<User>, crypto: Crypto): Outcome<string>
    requires HasUser(users, Field(req, "username"))
  {
    var user := FindUser(users, Field(req, "username")).value;
    crypto.sign(Claims(user.username, user.role), TokenLifetime)
  }

  /** The handler. It only reads the users collection. */
  function Handle(req: Request, env: Env, users: seq<User>, db: Db, crypto: Crypto): (r: Response)
    ensures req.httpMethod == Options ==> r == Preflight
    ensures req.httpMethod != Options && req.httpMethod != Post ==> r == MethodNotAllowed
    ensures req.httpMethod == Post && !Configured(req, env) ==> r == ConfigError
    ensures r == MissingCredentials <==>
      Configured(req, env) && Destructure(req.body).Ok? && !HasCredentials(req)
    ensures r.status == 401 ==> r == InvalidCredentials
    ensures r.status == 401 <==> (
      && ReachesStore(req, env, db)
      && (|| !HasUser(users, Field(req, "username"))
          || crypto.compare(Field(req, "password"),
               FindUser(users, Field(req, "username")).value.password) == Ok(false)))
    ensures r.status == 200 && req.httpMethod == Post <==> (
      && ReachesStore(req, env, db)
      && HasUser(users, Field(req, "username"))
      && PasswordAccepted(req, users, crypto)
      && crypto.sign(Claims(Field(req, "username"), FindUser(users, Field(req, "username")).value.role),
           TokenLifetime).Ok?)
    ensures r.status == 200 && req.httpMethod == Post ==>
      var user := FindUser(users, Field(req, "username")).value;
      r.payload == Session(crypto.sign(Claims(user.username, user.role), TokenLifetime).value, user.role)
    ensures r.status == 500 && Configured(req, env) ==> (
      && r.payload.Error?
      && |r.payload.error| >= |FaultPrefix|
      && r.payload.error[..|FaultPrefix|] == FaultPrefix)
    ensures r.status == 500 <==> (
      && req.httpMethod == Post
      && (|| !Configured(req, env)
          || Destructure(req.body).Throw?
          || (HasCredentials(req) && db.Down?)
          || (&& ReachesStore(req, env, db) && HasUser(users, Field(req, "username"))
              && (|| Verdict(req, users, crypto).Throw?
                  || (PasswordAccepted(req, users, crypto) && Signing(req, users, crypto).Throw?)))))
    ensures Configured(req, env) && Destructure(req.body).Throw? ==>
      r == Fault(Destructure(req.body).message)
    ensures Configured(req, env) && HasCredentials(req) && db.Down? ==> r == Fault(db.message)
    ensures (ReachesStore(req, env, db) && HasUser(users, Field(req, "username")) &&
             Verdict(req, users, crypto).Throw?) ==>
      r == Fault(Verdict(req, users, crypto).message)
    ensures (ReachesStore(req, env, db) && HasUser(users, Field(req, "username")) &&
             PasswordAccepted(req, users, crypto) && Signing(req, users, crypto).Throw?) ==>
      r == Fault(Signing(req, users, crypto).message)
  {
    if req.httpMethod == Options then Preflight
    else if req.httpMethod != Post then MethodNotAllowed
    else if !env.mongoUri || !env.jwtSecret then ConfigError
    else match Destructure(req.body)
      case Throw(message) => Fault(message)
      case Ok(fields) =>
        var username, password := Get(fields, "username"), Get(fields, "password");
        if !Truthy(username) || !Truthy(password) then MissingCredentials
        else if db.Down? then Fault(db.message)
        else match FindUser(users, username)
          case None => InvalidCredentials
          case Some(user) =>
            match crypto.compare(password, user.password)
            case Throw(message) => Fault(message)
            case Ok(valid) =>
              if !valid then InvalidCredentials
              else match crypto.sign(Claims(user.username, user.role), TokenLifetime)
                case Throw(message) => Fault(message)
                case Ok(token) => Response(200, Session(token, user.role))
  }

  /** An unknown username and a wrong password get the same answer, so the
      response does not reveal which usernames exist. */
  lemma UnknownUserLooksLikeWrongPassword(
    unknown: Request, wrong: Request, env: Env, users: seq<User>, db: Db, crypto: Crypto)
    requires ReachesStore(unknown, env, db) && ReachesStore(wrong, env, db)
    requires !HasUser(users, Field(unknown, "username"))
    requires HasUser(users, Field(wrong, "username"))
    requires crypto.compare(Field(wrong, "password"),
      FindUser(users, Field(wrong, "username")).value.password) == Ok(false)
    ensures Handle(unknown, env, users, db, crypto) == Handle(wrong, env, users, db, crypto)
    ensures Handle(unknown, env, users, db, crypto) == InvalidCredentials
  {
  }

  /** Missing configuration is reported before the body is read or the store
      is contacted: the answer is the same whatever the body, users and store. */
  lemma ConfigurationCheckedFirst(
    req: Request, body: Body, env: Env, users1: seq<User>, users2: seq<User>, db1: Db, db2: Db, crypto: Crypto)
    requires req.httpMethod == Post && !(env.mongoUri && env.jwtSecret)
    ensures Handle(req, env, users1, db1, crypto) == ConfigError
    ensures Handle(req.(body := body), env, users2, db2, crypto) == ConfigError
  {
  }

  /** A missing or empty username or password is rejected without a lookup:
      the answer does not depend on the users or on the store's state. */
  lemma MissingCredentialsSkipStore(
    req: Request, env: Env, users1: seq<User>, users2: seq<User>, db1: Db, db2: Db, crypto: Crypto)
    requires Configured(req, env) && Destructure(req.body).Ok? && !HasCredentials(req)
    ensures Handle(req, env, users1, db1, crypto) == Handle(req, env, users2, db2, crypto) == MissingCredentials
  {
  }

  /** With unique usernames, a successful login returns the stored role of the
      one user with that username, and the token was signed over exactly that
      username and role with the two-hour lifetime. */
  lemma SessionCarriesStoredRole(req: Request, env: Env, users: seq<User>, db: Db, crypto: Crypto, k: nat)
    requires UniqueUsernames(users)
    requires k < |users| && users[k].username == Field(req, "username")
    requires req.httpMethod == Post && Handle(req, env, users, db, crypto).status == 200
    ensures Handle(req, env, users, db, crypto).payload ==
      Session(crypto.sign(Claims(users[k].username, users[k].role), TokenLifetime).value, users[k].role)
  {
  }
}

=== FILE: roles.dfy ===
/** The user roles the client and the handlers agree on. */
module Roles {

  /** The role whose holders see the admin panel and may call the admin handlers. */
  const AdminRole := "admin"
}

=== FILE: seqs.dfy ===
/**
 * Sequence utilities used by both the client and the document store:
 * first-match search (`Array.prototype.find`, `findOne`), duplicate-free
 * sequences, insertion-ordered de-duplication (a JavaScript `Set` filled in
 * order) and order-preserving selection of positions.
 */
module Seqs {
  import opened Wrappers

  /** The position of the first element satisfying `p`, if any. */
  function FirstWhere<T>(xs: seq<T>, p: T -> bool): (r: Option<nat>)
    ensures r.Some? ==> r.value < |xs| && p(xs[r.value])
    ensures r.Some? ==> forall j :: 0 <= j < r.value ==> !p(xs[j])
    ensures r.None? <==> forall j :: 0 <= j < |xs| ==> !p(xs[j])
    decreases |xs|
  {
    if |xs| == 0 then None
    else if p(xs[0]) then Some(0)
    else match FirstWhere(xs[1..], p)
      case None => None
      case Some(i) => Some(i + 1)
  }

  /** No element occurs twice. */
  predicate NoDup<T(==)>(xs: seq<T>) {
    forall i, j :: 0 <= i < j < |xs| ==> xs[i] != xs[j]
  }

  /** The position of the first occurrence of `x` in `xs`. */
  ghost function FirstIndex<T>(xs: seq<T>, x: T): (i: nat)
    requires x in xs
    ensures i < |xs| && xs[i] == x
    ensures forall j :: 0 <= j < i ==> xs[j] != x
    decreases |xs|
  {
    if xs[0] == x then 0 else FirstIndex(xs[1..], x) + 1
  }

  /** The first occurrence is the only position before which `x` is absent. */
  lemma FirstIndexUnique<T>(xs: seq<T>, x: T, i: nat)
    requires i < |xs| && xs[i] == x
    requires forall j :: 0 <= j < i ==> xs[j] != x
    ensures FirstIndex(xs, x) == i
  {
  }

  /** A prefix that already contains `x` has the same first occurrence. */
  lemma FirstIndexInPrefix<T>(xs: seq<T>, n: nat, x: T)
    requires n <= |xs| && x in xs[..n]
    ensures FirstIndex(xs[..n], x) == FirstIndex(xs, x)
  {
    FirstIndexUnique(xs, x, FirstIndex(xs[..n], x));
  }

  /** `xs` without repeats, each element kept at its first occurrence: adding
      the elements one by one to an insertion-ordered set. */
  function Dedup<T(==)>(xs: seq<T>): (r: seq<T>)
    ensures NoDup(r)
    ensures forall k :: 0 <= k < |r| ==> r[k] in xs
    ensures forall k :: 0 <= k < |xs| ==> xs[k] in r
    decreases |xs|
  {
    if |xs| == 0 then []
    else
      var init := xs[..|xs| - 1];
      var d := Dedup(init);
      var x := xs[|xs| - 1];
      assert xs == init + [x];
      if x in d then d else d + [x]
  }

  /** De-duplication keeps the order of first occurrences. */
  lemma {:induction false} DedupFirstOccurrenceOrder<T>(xs: seq<T>)
    ensures forall i, j :: 0 <= i < j < |Dedup(xs)| ==>
      FirstIndex(xs, Dedup(xs)[i]) < FirstIndex(xs, Dedup(xs)[j])
    decreases |xs|
  {
    if |xs| > 0 {
      var n := |xs| - 1;
      var init := xs[..n];
      var d := Dedup(init);
      var x := xs[n];
      assert xs == init + [x];
      DedupFirstOccurrenceOrder(init);
      var r := Dedup(xs);
      forall i, j | 0 <= i < j < |r|
        ensures FirstIndex(xs, r[i]) < FirstIndex(xs, r[j])
      {
        FirstIndexInPrefix(xs, n, r[i]);
        if j < |d| {
          FirstIndexInPrefix(xs, n, r[j]);
        } else {
          assert r[j] == x && x !in init;
          FirstIndexUnique(xs, x, n);
        }
      }
    }
  }

  /** `idx` lists strictly increasing positions of `xs` whose elements, in
      order, make up `sub`: `sub` is an order-preserving selection from `xs`. */
  ghost predicate Selects<T>(idx: seq<nat>, sub: seq<T>, xs: seq<T>) {
    && |idx| == |sub|
    && (forall k :: 0 <= k < |idx| ==> idx[k] < |xs| && sub[k] == xs[idx[k]])
    && (forall k, l :: 0 <= k < l < |idx| ==> idx[k] < idx[l])
  }
}

=== FILE: text.dfy ===
/**
 * The string operations the gallery client relies on: ASCII lower-casing,
 * substring search (`includes`), `split` on one character, `join`, `trim`,
 * and the comma-separated list fields of the profile forms built from them.
 */
module Text {

  /** The code points ECMAScript's `String.prototype.trim` removes
      (WhiteSpace and LineTerminator). */
  predicate IsSpace(c: char) {
    || c == '\t' || c == '\n' || c == '\U{B}' || c == '\U{C}' || c == '\r' || c == ' '
    || c == '\U{A0}' || c == '\U{1680}' || ('\U{2000}' <= c <= '\U{200A}')
    || c == '\U{2028}' || c == '\U{2029}' || c == '\U{202F}' || c == '\U{205F}'
    || c == '\U{3000}' || c == '\U{FEFF}'
  }

  predicate IsUpperAscii(c: char) {
    'A' <= c <= 'Z'
  }

  /** `toLowerCase`, restricted to the ASCII letters. */
  function LowerChar(c: char): (r: char)
    ensures !IsUpperAscii(r)
    ensures IsUpperAscii(c) ==> r as int == c as int + 32
    ensures !IsUpperAscii(c) ==> r == c
  {
    if IsUpperAscii(c) then (c as int + 32) as char else c
  }

  function Lower(s: string): (r: string)
    ensures |r| == |s|
    ensures forall i :: 0 <= i < |s| ==> r[i] == LowerChar(s[i])
  {
    seq(|s|, i requires 0 <= i < |s| => LowerChar(s[i]))
  }

  /** Lower-casing twice is lower-casing once. */
  lemma LowerIdempotent(s: string)
    ensures Lower(Lower(s)) == Lower(s)
  {
    assert forall i :: 0 <= i < |s| ==> LowerChar(LowerChar(s[i])) == LowerChar(s[i]);
  }

  // ---------------------------------------------------------------------------
  // Substring search: `s.includes(t)`.

  predicate IsPrefix(t: string, s: string) {
    |t| <= |s| && s[..|t|] == t
  }

  /** `s.includes(t)`: `t` occurs somewhere in `s`, tried position by position. */
  predicate Includes(s: string, t: string)
    decreases |s|
  {
    IsPrefix(t, s) || (|s| > 0 && Includes(s[1..], t))
  }

  /** `t` occurs in `s` starting at position `i`. */
  ghost predicate OccursAt(s: string, t: string, i: int) {
    0 <= i && i + |t| <= |s| && s[i..i + |t|] == t
  }

  /** `Includes` agrees with the definition of a substring by position. */
  lemma {:induction false} IncludesIffOccurs(s: string, t: string)
    ensures Includes(s, t) <==> exists i :: OccursAt(s, t, i)
    decreases |s|
  {
    if IsPrefix(t, s) {
      assert OccursAt(s, t, 0);
    } else if |s| > 0 {
      IncludesIffOccurs(s[1..], t);
      if Includes(s[1..], t) {
        var i :| OccursAt(s[1..], t, i);
        assert s[1..][i..i + |t|] == s[i + 1..i + 1 + |t|];
        assert OccursAt(s, t, i + 1);
      }
      if i :| OccursAt(s, t, i) {
        assert i != 0;
        assert s[1..][i - 1..i - 1 + |t|] == s[i..i + |t|];
        assert OccursAt(s[1..], t, i - 1);
      }
    }
  }

  /** Every string includes the empty string. */
  lemma IncludesEmpty(s: string)
    ensures Includes(s, "")
  {
  }

  // ---------------------------------------------------------------------------
  // `split` on one character and its inverse `join`.

  /** `s.split(sep)` for a one-character separator: the maximal separator-free
      pieces of `s`, in order; the empty string gives one empty piece. */
  function Split(s: string, sep: char): (r: seq<string>)
    ensures |r| == multiset(s)[sep] + 1
    ensures forall k :: 0 <= k < |r| ==> sep !in r[k]
    decreases |s|
  {
    if |s| == 0 then [""]
    else
      var rest := Split(s[1..], sep);
      assert s == [s[0]] + s[1..];
      if s[0] == sep then [""] + rest
      else [[s[0]] + rest[0]] + rest[1..]
  }

  /** The summed length of the entries. */
  function TotalLength(xs: seq<string>): nat
    decreases |xs|
  {
    if |xs| == 0 then 0 else |xs[0]| + TotalLength(xs[1..])
  }

  /** `xs.join(sep)`: the entries in order, the first one leading, with one
      separator between each neighbouring pair and none at the ends. */
  function Join(xs: seq<string>, sep: string): (r: string)
    ensures |xs| == 0 ==> r == ""
    ensures |xs| > 0 ==> |r| == TotalLength(xs) + (|xs| - 1) * |sep|
    ensures |xs| > 0 ==> IsPrefix(xs[0], r)
    decreases |xs|
  {
    if |xs| == 0 then ""
    else if |xs| == 1 then xs[0]
    else xs[0] + sep + Join(xs[1..], sep)
  }

  /** Joining a list with one more entry in front. */
  lemma JoinCons(x: string, xs: seq<string>, sep: string)
    requires |xs| >= 1
    ensures Join([x] + xs, sep) == x + sep + Join(xs, sep)
  {
    assert ([x] + xs)[1..] == xs;
  }

  /** Prefixing the first entry with a character prefixes the join with it. */
  lemma JoinPrependToFirst(c: char, xs: seq<string>, sep: string)
    requires |xs| >= 1
    ensures Join([[c] + xs[0]] + xs[1..], sep) == [c] + Join(xs, sep)
  {
    var ys := [[c] + xs[0]] + xs[1..];
    if |xs| >= 2 {
      assert ys[1..] == xs[1..];
      var tail := Join(xs[1..], sep);
      assert Join(ys, sep) == ([c] + xs[0]) + sep + tail;
      assert ([c] + xs[0]) + sep + tail == [c] + (xs[0] + sep + tail);
    }
  }

  /** Joining the pieces of a split with the separator rebuilds the string. */
  lemma {:induction false} JoinSplit(s: string, sep: char)
    ensures Join(Split(s, sep), [sep]) == s
    decreases |s|
  {
    if |s| > 0 {
      var rest := Split(s[1..], sep);
      JoinSplit(s[1..], sep);
      assert s == [s[0]] + s[1..];
      if s[0] == sep {
        JoinCons("", rest, [sep]);
      } else {
        JoinPrependToFirst(s[0], rest, [sep]);
      }
    }
  }

  /** A separator-free string is a single piece. */
  lemma {:induction false} SplitFree(a: string, sep: char)
    requires sep !in a
    ensures Split(a, sep) == [a]
    decreases |a|
  {
    if |a| > 0 {
      SplitFree(a[1..], sep);
      assert [a[0]] + a[1..] == a;
    }
  }

  /** The first piece ends at the first separator. */
  lemma {:induction false} SplitAtSeparator(a: string, sep: char, b: string)
    requires sep !in a
    ensures Split(a + [sep] + b, sep) == [a] + Split(b, sep)
    decreases |a|
  {
    if |a| == 0 {
      assert a + [sep] + b == [sep] + b;
      assert ([sep] + b)[1..] == b;
    } else {
      var s := a + [sep] + b;
      assert s[1..] == a[1..] + [sep] + b;
      SplitAtSeparator(a[1..], sep, b);
      assert [a[0]] + a[1..] == a;
    }
  }

  /** Splitting a join of separator-free pieces gives the pieces back. */
  lemma {:induction false} SplitJoin(xs: seq<string>, sep: char)
    requires |xs| >= 1
    requires forall k :: 0 <= k < |xs| ==> sep !in xs[k]
    ensures Split(Join(xs, [sep]), sep) == xs
    decreases |xs|
  {
    if |xs| == 1 {
      SplitFree(xs[0], sep);
    } else {
      SplitJoin(xs[1..], sep);
      SplitAtSeparator(xs[0], sep, Join(xs[1..], [sep]));
      assert [xs[0]] + xs[1..] == xs;
    }
  }

  // ---------------------------------------------------------------------------
  // `trim`.

  /** Every character is white space. */
  predicate AllSpace(s: string) {
    forall k :: 0 <= k < |s| ==> IsSpace(s[k])
  }

  /** `trimStart`: drops the white space in front, and nothing else. */
  function TrimStart(s: string): (r: string)
    ensures |r| <= |s|
    ensures r == s[|s| - |r|..]
    ensures AllSpace(s[..|s| - |r|])
    ensures |r| > 0 ==> !IsSpace(r[0])
    decreases |s|
  {
    if |s| > 0 && IsSpace(s[0]) then
      var r := TrimStart(s[1..]);
      assert s[..|s| - |r|] == [s[0]] + s[1..][..|s| - 1 - |r|];
      r
    else s
  }

  /** `trimEnd`: drops the white space behind, and nothing else. */
  function TrimEnd(s: string): (r: string)
    ensures |r| <= |s|
    ensures r == s[..|r|]
    ensures AllSpace(s[|r|..])
    ensures |r| > 0 ==> !IsSpace(r[|r| - 1])
    decreases |s|
  {
    if |s| > 0 && IsSpace(s[|s| - 1]) then
      var r := TrimEnd(s[..|s| - 1]);
      assert s[|r|..] == s[..|s| - 1][|r|..] + [s[|s| - 1]];
      r
    else s
  }

  /** A string with no white space at either end. */
  predicate Trimmed(s: string) {
    |s| == 0 || (!IsSpace(s[0]) && !IsSpace(s[|s| - 1]))
  }

  /** `r` is `s` with nothing but white space taken off its two ends. */
  ghost predicate Strips(s: string, r: string) {
    exists a, b :: AllSpace(a) && AllSpace(b) && s == a + r + b
  }

  /** `a` and `b` witness that `a + r + b` strips to `r`. */
  lemma StripsBy(s: string, a: string, r: string, b: string)
    requires AllSpace(a) && AllSpace(b) && s == a + (r + b)
    ensures Strips(s, r)
  {
    assert s == a + r + b;
  }

  /** Removing white space from the front and then from the back strips. */
  lemma StripsBoth(s: string, t: string, r: string)
    requires |t| <= |s| && t == s[|s| - |t|..] && AllSpace(s[..|s| - |t|])
    requires |r| <= |t| && r == t[..|r|] && AllSpace(t[|r|..])
    ensures Strips(s, r)
  {
    var a, b := s[..|s| - |t|], t[|r|..];
    assert s == a + t;
    assert t == r + b;
    StripsBy(s, a, r, b);
  }

  /** `s.trim()`: `s` without its leading and trailing white space. */
  function Trim(s: string): (r: string)
    ensures Trimmed(r)
    ensures Strips(s, r)
    ensures Includes(s, r)
  {
    var t := TrimStart(s);
    var r := TrimEnd(t);
    StripsBoth(s, t, r);
    assert r == s[|s| - |t|..|s| - |t| + |r|];
    assert OccursAt(s, r, |s| - |t|);
    IncludesIffOccurs(s, r);
    r
  }

  /** Where the three parts of `a + r + b` sit in the whole. */
  lemma Layout(s: string, a: string, r: string, b: string)
    requires AllSpace(a) && AllSpace(b) && s == a + r + b
    ensures forall k :: 0 <= k < |a| ==> IsSpace(s[k])
    ensures forall k :: |a| + |r| <= k < |s| ==> IsSpace(s[k])
    ensures forall k :: 0 <= k < |r| ==> r[k] == s[|a| + k]
  {
    assert forall k :: 0 <= k < |a| ==> s[k] == a[k];
    assert forall k :: |a| + |r| <= k < |s| ==> s[k] == b[k - |a| - |r|];
  }

  /** There is only one trimmed string that `s` strips to, so `Trim` is the
      unique answer to "remove the white space at both ends". */
  lemma {:induction false} StripsUnique(s: string, r1: string, r2: string)
    requires Strips(s, r1) && Trimmed(r1)
    requires Strips(s, r2) && Trimmed(r2)
    ensures r1 == r2
  {
    var a1, b1 :| AllSpace(a1) && AllSpace(b1) && s == a1 + r1 + b1;
    var a2, b2 :| AllSpace(a2) && AllSpace(b2) && s == a2 + r2 + b2;
    Layout(s, a1, r1, b1);
    Layout(s, a2, r2, b2);
    // The first and last characters of a non-empty trimmed part are not
    // white space, so they sit inside the other trimmed part as well.
    assert |r1| > 0 ==> !IsSpace(s[|a1|]) && !IsSpace(s[|a1| + |r1| - 1]);
    assert |r2| > 0 ==> !IsSpace(s[|a2|]) && !IsSpace(s[|a2| + |r2| - 1]);
    assert |a1| == |a2| || (|r1| == 0 && |r2| == 0);
    assert |r1| == |r2|;
  }

  lemma AllSpaceConcat(a: string, b: string)
    requires AllSpace(a) && AllSpace(b)
    ensures AllSpace(a + b)
  {
    assert forall k :: 0 <= k < |a + b| ==> (a + b)[k] == if k < |a| then a[k] else b[k - |a|];
  }

  /** White space added around a string is removed again by the trim: the
      partner of `Trim`'s contract. */
  lemma TrimSurroundingSpace(a: string, s: string, b: string)
    requires AllSpace(a) && AllSpace(b)
    ensures Trim(a + s + b) == Trim(s)
  {
    StripsAround(a, s, b, Trim(s));
    StripsUnique(a + s + b, Trim(a + s + b), Trim(s));
  }

  /** Stripping still reaches `r` after more white space is put around. */
  lemma StripsAround(a: string, s: string, b: string, r: string)
    requires AllSpace(a) && AllSpace(b) && Strips(s, r)
    ensures Strips(a + s + b, r)
  {
    var a', b' :| AllSpace(a') && AllSpace(b') && s == a' + r + b';
    AllSpaceConcat(a, a');
    AllSpaceConcat(b', b);
    calc {
      a + s + b;
      a + (a' + r + b') + b;
      (a + a') + (r + (b' + b));
    }
    StripsBy(a + s + b, a + a', r, b' + b);
  }

  /** Trimming leaves an already trimmed string alone. */
  lemma TrimTrimmed(s: string)
    requires Trimmed(s)
    ensures Trim(s) == s
  {
  }

  /** A leading white-space character never survives a trim. */
  lemma TrimLeadingSpace(c: char, s: string)
    requires IsSpace(c)
    ensures Trim([c] + s) == Trim(s)
  {
    assert ([c] + s)[1..] == s;
  }

  // ---------------------------------------------------------------------------
  // The comma-separated list fields of the add and edit forms.

  /** `pieces.map(x => x.trim())`. */
  function TrimAll(pieces: seq<string>): (r: seq<string>)
    ensures |r| == |pieces|
    ensures forall k :: 0 <= k < |r| ==> r[k] == Trim(pieces[k])
    decreases |pieces|
  {
    if |pieces| == 0 then [] else [Trim(pieces[0])] + TrimAll(pieces[1..])
  }

  /** `value.split(",").map(x => x.trim())`: one entry per comma plus one,
      each trimmed and comma-free. */
  function ParseList(field: string): (r: seq<string>)
    ensures |r| == multiset(field)[','] + 1
    ensures forall k :: 0 <= k < |r| ==> Trimmed(r[k]) && ',' !in r[k]
    ensures forall k :: 0 <= k < |r| ==> r[k] == Trim(Split(field, ',')[k])
  {
    TrimAll(Split(field, ','))
  }

  /** `xs.join(", ")`, the value an edit form field is pre-filled with. */
  function FormatList(xs: seq<string>): (r: string)
    ensures |xs| == 0 ==> r == ""
    ensures |xs| > 0 ==> |r| == TotalLength(xs) + 2 * (|xs| - 1)
    ensures |xs| > 0 ==> IsPrefix(xs[0], r)
  {
    Join(xs, ", ")
  }

  /** An empty form field parses to one empty entry. */
  lemma ParseEmptyField()
    ensures ParseList("") == [""]
  {
  }

  /** A comma splits the field into the trimmed first piece and the rest. */
  lemma ParseListAtComma(a: string, b: string)
    requires ',' !in a
    ensures ParseList(a + "," + b) == [Trim(a)] + ParseList(b)
  {
    SplitAtSeparator(a, ',', b);
    var p := [a] + Split(b, ',');
    assert p[1..] == Split(b, ',');
  }

  /** A leading space does not change the parsed list. */
  lemma ParseListLeadingSpace(s: string)
    ensures ParseList(" " + s) == ParseList(s)
  {
    var q := Split(s, ',');
    SplitLeadingChar(' ', s, ',');
    TrimAllCons(" " + q[0], q[1..]);
    TrimLeadingSpace(' ', q[0]);
    TrimAllCons(q[0], q[1..]);
    HeadTail(q);
  }

  /** A character other than the separator joins the first piece. */
  lemma SplitLeadingChar(c: char, s: string, sep: char)
    requires c != sep
    ensures Split([c] + s, sep) == [[c] + Split(s, sep)[0]] + Split(s, sep)[1..]
  {
    assert ([c] + s)[1..] == s;
  }

  /** Trimming a list entry by entry, one entry at a time. */
  lemma TrimAllCons(x: string, xs: seq<string>)
    ensures TrimAll([x] + xs) == [Trim(x)] + TrimAll(xs)
  {
    assert ([x] + xs)[1..] == xs;
  }

  /** The formatted list is its first entry, a comma, and the rest with a space in front. */
  lemma FormatListCons(xs: seq<string>, tail: string)
    requires |xs| >= 2 && tail == Join(xs[1..], ", ")
    ensures FormatList(xs) == xs[0] + "," + (" " + tail)
  {
    assert FormatList(xs) == xs[0] + ", " + tail;
  }

  /** A non-empty sequence is its head followed by its tail. */
  lemma HeadTail<T>(xs: seq<T>)
    requires |xs| > 0
    ensures [xs[0]] + xs[1..] == xs
  {
  }

  /** One step of the round trip: a trimmed, comma-free entry in front of a
      list that already round-trips. */
  lemma ParseFormatStep(xs: seq<string>)
    requires |xs| >= 2 && Trimmed(xs[0]) && ',' !in xs[0]
    requires ParseList(FormatList(xs[1..])) == xs[1..]
    ensures ParseList(FormatList(xs)) == xs
  {
    var head, rest := xs[0], xs[1..];
    var tail := Join(rest, ", ");
    assert tail == FormatList(rest);
    FormatListCons(xs, tail);
    ParseListAtComma(head, " " + tail);
    ParseListLeadingSpace(tail);
    TrimTrimmed(head);
    calc {
      ParseList(FormatList(xs));
      ParseList(head + "," + (" " + tail));
      [Trim(head)] + ParseList(" " + tail);
      [head] + ParseList(tail);
      { HeadTail(xs); }
      xs;
    }
  }

  /** Pre-filling a form field with `join(", ")` and parsing it back returns
      the original list, provided the list is not empty and its entries are
      trimmed and comma-free. */
  lemma {:induction false} ParseFormatRoundTrip(xs: seq<string>)
    requires |xs| >= 1
    requires forall k :: 0 <= k < |xs| ==> Trimmed(xs[k]) && ',' !in xs[k]
    ensures ParseList(FormatList(xs)) == xs
    decreases |xs|
  {
    if |xs| == 1 {
      SplitFree(xs[0], ',');
      TrimTrimmed(xs[0]);
    } else {
      ParseFormatRoundTrip(xs[1..]);
      ParseFormatStep(xs);
    }
  }

  /** The round trip fails for the empty list: it comes back as one empty entry. */
  lemma EmptyListDoesNotRoundTrip()
    ensures FormatList([]) == ""
    ensures ParseList(FormatList([])) == [""]
  {
  }
}

=== FILE: wrappers.dfy ===
/** Failure-carrying datatypes shared by the whole model. */
module Wrappers {

  /** A value that may be absent: JavaScript's `undefined`/`null` for a lookup. */
  datatype Option<+T> = None | Some(value: T)

  /** The result of a step that may throw: `Throw` carries the exception's `message`. */
  datatype Outcome<+T> = Ok(value: T) | Throw(message: string)
}
